=== FILE: README.md ===
# Item inspection, order survey and checkout logic — a Dafny model

This project models the parts of the "Our3DDate" / OurLoveSong.co repository that hold logic rather than markup. Each part is proved correct against its own contracts.

- **`Interaction`** models the 3D viewer's item-inspection engine (`ItemInteraction`). It covers:
  - telling a click from a drag, using a 5-pixel threshold that sticks until the next press;
  - the parent walk from a raycast hit to its registered item;
  - the focus/unfocus state machine, with its flags, snapshot and targets;
  - the orbit controls' `enabled` flag and the overlay's visibility, both as booleans;
  - the per-frame update, including the exact snap back to the snapshot when the return animation ends.

  Every event is a pure function on an immutable `Engine` record. `Step`/`Run` drive sequences of events. The proved invariants are:
  - `Valid` holds in every reachable state. Among other things, controls are disabled exactly while a session exists, the overlay is shown exactly while an item is focused, and pitch stays within ±0.5.
  - `Home`: a node's "home" transform (its snapshot while focused, its transform otherwise) never changes. So whenever the engine is idle again, the whole scene is exactly as it was.
- **`SurveyTypes`** models the survey tables: relationships, their labels and display order, and the five-step table.
- **`SurveyHook`** models the order survey hook (`useSurvey`):
  - step navigation clamped to 1..5;
  - per-step partial updates that touch only their own step and clear only its errors;
  - `validateStepN` and its agreement with `isStepValid`;
  - the progress percentage;
  - the data written to and read back from storage, with the two file fields stripped.
- **`Translation`** models the translation lookup `t(key, params)`. It covers the dotted-path walk with key fallback, including index segments into JSON arrays such as `testimonials.items.0.quote`, and the `{{name}}` placeholder substitution.
- **`Utils`** models `truncateText`, including its negative-`slice` edge case, and the delivery-day offset.
- **`Checkout`** models the checkout route's mapping from the posted order to line items in euro cents, metadata and return URLs.
- **`JsString`** holds the ECMAScript string operations used above: `trim`, `slice(0, end)` and `split`/`join`.
- **`Wrappers`** defines `Option`.

Two behaviours of the code to note:
- A move of exactly 5 px is still a click. The code tests `distance > 5` (src/interaction.js:76).
- The "ignore while animating" guard applies only to `focusItem`. `unfocusItem` has no such guard, so a click or Escape can interrupt a presentation animation in flight (src/interaction.js:179-201).

## Model

| member | source | states |
|---|---|---|
| Interaction.Register | src/interaction.js:56-58 | registering appends the item to the registry (duplicates kept) and changes nothing else |
| Interaction.OnMouseDown | src/interaction.js:60-67 | a press starts a fresh gesture: not dragging, button down, press and last position at the pointer; the focus session is untouched |
| Interaction.OnMouseMove | src/interaction.js:69-94 | with the button up nothing changes; otherwise dragging becomes (was dragging or squared distance from the press > 25) and never reverts; the offset changes only when focused, dragging and an item is focused; yaw grows by 0.01·dx; pitch is clamped to ±0.5 |
| Interaction.ClampPitch | src/interaction.js:88-89 | the clamped pitch always lies in [-0.5, 0.5], equals the input inside that range and the nearer bound outside it |
| Interaction.FirstRegistered | src/interaction.js:126-138 | the result is the first node of the hit's ancestor chain that is registered; none exactly when no node of the chain is registered |
| Interaction.ResolveHit | src/interaction.js:130-133 | the parent-walking loop returns the same node as the first-registered characterisation |
| Interaction.HandleClick | src/interaction.js:110-139 | a click while focused unfocuses without hit-testing; otherwise it focuses the resolved registered item or does nothing; a newly focused item is always registered |
| Interaction.OnMouseUp | src/interaction.js:96-102 | the release runs click handling exactly when the gesture is not a drag, and always leaves the button up |
| Interaction.OnKeyDown | src/interaction.js:104-108 | Escape unfocuses only while an item is focused; no key ever changes the controls flag or the scene |
| Interaction.FocusItem | src/interaction.js:141-177 | ignored while animating; otherwise it sets focused and animating, zeroes the offset, snapshots the item's transform, targets camera position + 1.2·forward at scale 1.5 with upright rotation, disables the controls and shows the overlay |
| Interaction.UnfocusItem | src/interaction.js:179-201 | a no-op without a focused item and snapshot; otherwise it clears focused, targets the snapshot's position and rotation at scale 1, zeroes the offset, marks unfocusing and hides the overlay at once, while the item stays focused until it arrives |
| Interaction.Update | src/interaction.js:217-267 | a no-op with no focused item; only the focused item's transform changes; while animating, a frame that does not complete a return moves the item one animation step on and keeps animating exactly when it has not arrived; an arriving presentation stops animating and keeps the item focused for inspection; while inspecting, only pitch and yaw turn 15% towards the drag offset; the controls flag changes only when a return completes, which restores the snapshot exactly, ends the session and re-enables the controls |
| Interaction.AnimationFrame | src/interaction.js:224-240 | an animation step leaves 90% of the gap on every axis: position towards the target position, rotation x and y towards the base rotation plus the drag offset's pitch and yaw, roll towards the base roll, and scale towards the target scale, kept uniform on all three axes; an item already at its target position or scale stays there |
| Interaction.InspectFrame | src/interaction.js:259-266 | an inspection step keeps position, scale and roll, and closes 15% of the pitch and yaw gap to the base rotation plus the drag offset |
| Interaction.UpdateClosesGap | src/interaction.js:221-225 | a frame of an animation that has not arrived keeps animating the same item and shrinks its squared distance to the target by the factor 0.81 |
| Interaction.InitValid | src/interaction.js:19-33 | the constructed engine is idle, with controls enabled and the overlay hidden, and satisfies the invariant |
| Interaction.StepPreservesValid | src/interaction.js:141-257 | every event preserves the reachable-state invariant |
| Interaction.RunPreservesValid | src/interaction.js:141-257 | every sequence of events preserves the invariant |
| Interaction.ReachableValid | src/interaction.js:172-176 | in every reachable state the controls are enabled exactly when no session exists, and the overlay is shown exactly while an item is focused |
| Interaction.StepPreservesHome | src/interaction.js:152-157 | no event changes where any node belongs outside a session |
| Interaction.RunPreservesHome | src/interaction.js:152-157 | no sequence of events changes where any node belongs outside a session |
| Interaction.SessionRestoresScene | src/interaction.js:249-257 | from idle back to idle, whatever happens in between, every node's position, rotation and scale is exactly what it was |
| Interaction.ClickWhileAnimatingKeepsItem | src/interaction.js:141-142 | a click while an animation is in flight never changes which item is focused |
| Interaction.ControlsReenabledOnlyOnReturn | src/interaction.js:245-257 | the controls are re-enabled only by a frame that completes a return, and that frame puts the item exactly on its snapshot |
| Interaction.ControlsDisabledOnlyOnFocus | src/interaction.js:172-173 | the controls are disabled only by a non-drag release that starts focusing the resolved item, showing the overlay |
| Interaction.EscapeWhenIdleIsInert | src/interaction.js:104-108 | Escape with no focused item changes nothing, so neither the overlay nor the controls are toggled |
| Interaction.GestureClassification | src/interaction.js:72-78 | press, one move, release: a click exactly when the move stays within 5 px (squared distance ≤ 25), a drag otherwise |
| Interaction.DragThresholdIsEuclidean | src/interaction.js:72-76 | comparing the squared pixel distance with 25 gives the same verdict as comparing the distance with 5 |
| Interaction.StepKeepsDrag | src/interaction.js:60-102 | every event other than a press leaves an ongoing drag a drag |
| Interaction.DragPersistsUntilPress | src/interaction.js:60-102 | once a gesture is a drag it stays one through any sequence of events that contains no press |
| Interaction.AnimationGapShrinks | src/interaction.js:221-225 | each animation frame closes 10% of the gap to the target, so the squared distance shrinks by the factor 0.81 |
| Interaction.PresentInFrontOfCamera | src/interaction.js:159-170 | an item at the identity clicked with the camera at (0,0,5) looking down -Z is presented at (0,0,3.8) at scale 1.5 with the identity snapshotted |
| SurveyTypes.RelationshipLabel | Ourlovesong/src/types/survey.ts:102-112 | every relationship has a label, which is its key with the first letter capitalised |
| SurveyTypes.ParseRelationship | Ourlovesong/src/types/survey.ts:9-18 | parsing yields the relationship whose key is exactly the given string, and nothing for any other string |
| SurveyTypes.RelationshipOrderIsPermutation | Ourlovesong/src/types/survey.ts:115-125 | the display order has 9 entries and lists every relationship exactly once |
| SurveyTypes.KeysAndLabelsDistinct | Ourlovesong/src/types/survey.ts:102-112 | distinct relationships have distinct keys and distinct labels |
| SurveyTypes.SurveyStepsWellFormed | Ourlovesong/src/types/survey.ts:87-96 | the step table has TOTAL_STEPS entries with ids 1..5 in order, and entry k fills `step{k}` |
| SurveyHook.ClearErrors | Ourlovesong/src/hooks/useSurvey.ts:148-152 | the errors of the updated step are gone and every other step's errors are kept |
| SurveyHook.UpdateStep1 | Ourlovesong/src/hooks/useSurvey.ts:143-153 | fields the partial mentions are overwritten; the other step-1 fields, all other steps and the current step are unchanged; step-1 errors are cleared |
| SurveyHook.UpdateStep2 | Ourlovesong/src/hooks/useSurvey.ts:155-164 | the same for step 2's song file |
| SurveyHook.UpdateStep3 | Ourlovesong/src/hooks/useSurvey.ts:166-175 | the same for step 3's background |
| SurveyHook.UpdateStep4 | Ourlovesong/src/hooks/useSurvey.ts:177-186 | the same for step 4's card message |
| SurveyHook.UpdateStep5 | Ourlovesong/src/hooks/useSurvey.ts:188-197 | the same for step 5's confirmation |
| SurveyHook.UpdateStepIdempotent | Ourlovesong/src/hooks/useSurvey.ts:143-197 | for every step, applying the same partial update twice equals applying it once |
| SurveyHook.UpdatesOfDifferentStepsCommute | Ourlovesong/src/hooks/useSurvey.ts:143-197 | for every pair of distinct steps, their partial updates commute |
| SurveyHook.NextStep | Ourlovesong/src/hooks/useSurvey.ts:129-131 | the next step is one further, but never beyond TOTAL_STEPS |
| SurveyHook.PrevStep | Ourlovesong/src/hooks/useSurvey.ts:133-135 | the previous step is one back, but never before 1 |
| SurveyHook.GoToStep | Ourlovesong/src/hooks/useSurvey.ts:137-140 | the target is always in 1..5: the requested step if valid, else the nearer end |
| SurveyHook.NavigationStaysInRange | Ourlovesong/src/hooks/useSurvey.ts:129-140 | from a step in 1..5 every navigation stays in 1..5 |
| SurveyHook.GoToStepIdempotent | Ourlovesong/src/hooks/useSurvey.ts:137-140 | jumping twice equals jumping once |
| SurveyHook.NextPrevInverse | Ourlovesong/src/hooks/useSurvey.ts:129-135 | next then previous (below the last step), or previous then next (above the first), returns to the same step |
| SurveyHook.FirstAndLastAreFixedPoints | Ourlovesong/src/hooks/useSurvey.ts:318-319 | isFirstStep holds exactly when going back stays put, and isLastStep exactly when going forward stays put |
| SurveyHook.Progress | Ourlovesong/src/hooks/useSurvey.ts:284-286 | Math.round(step/5·100) equals 20·step |
| SurveyHook.ProgressMonotone | Ourlovesong/src/hooks/useSurvey.ts:284-286 | progress never decreases as the step grows |
| SurveyHook.ProgressOfLastStepIsComplete | Ourlovesong/src/hooks/useSurvey.ts:284-286 | progress is 100 on the last step and between 20 and 100 on every step |
| SurveyHook.Record | Ourlovesong/src/hooks/useSurvey.ts:204-217 | a failed check adds its field with its message and keeps every other recorded message; a passed check leaves the recorded messages exactly as they were |
| SurveyHook.ValidateStep1 | Ourlovesong/src/hooks/useSurvey.ts:200-221 | valid exactly when no message is recorded; a message is recorded for a missing relationship, a blank name and a missing photo, each exactly when that happens, with the messages "Please select who this is for", "Please enter her name" and "Please upload a photo" |
| SurveyHook.ValidateStep2 | Ourlovesong/src/hooks/useSurvey.ts:223-234 | valid exactly when no message is recorded; only the song file can be reported, exactly when it is missing, as "Please upload a song" |
| SurveyHook.ValidateStep3 | Ourlovesong/src/hooks/useSurvey.ts:236-247 | valid exactly when no message is recorded; only the background can be reported, exactly when it is empty, as "Please select a background" |
| SurveyHook.ValidateStep4 | Ourlovesong/src/hooks/useSurvey.ts:249-260 | valid exactly when no message is recorded; only the card message can be reported, exactly when it is blank, as "Please write a message" |
| SurveyHook.ValidateCurrentStep | Ourlovesong/src/hooks/useSurvey.ts:262-281 | for steps 1-4 it records exactly the messages and verdict of that step's own validation, keeps other steps' errors and adds no entry for any other step, and passes exactly when none were recorded; step 5 and out-of-table steps pass and record nothing |
| SurveyHook.ValidateAgreesWithIsStepValid | Ourlovesong/src/hooks/useSurvey.ts:288-303 | on every step 1..5 the validation verdict equals isStepValid |
| SurveyHook.StepValidityMeaning | Ourlovesong/src/hooks/useSurvey.ts:291-299 | step 1 is complete exactly when the relationship is set, the name has a non-whitespace character and a photo is present; step 4 exactly when the message is not blank; step 5 always |
| SurveyHook.EmptySurveyIncomplete | Ourlovesong/src/hooks/useSurvey.ts:24-42 | in a fresh survey no step but the review is complete |
| SurveyHook.SaveSurveyData | Ourlovesong/src/hooks/useSurvey.ts:76-80 | the stored object omits both file fields and records every other field |
| SurveyHook.LoadSurveyData | Ourlovesong/src/hooks/useSurvey.ts:45-68 | loaded data never has a photo or song file; with nothing readable stored it is the empty survey; otherwise each stored field overrides its default |
| SurveyHook.SaveLoadRoundTrip | Ourlovesong/src/hooks/useSurvey.ts:56-80 | saving then loading restores every answer except the two files |
| SurveyHook.LoadSaveStable | Ourlovesong/src/hooks/useSurvey.ts:56-62 | loaded answers survive another save and load unchanged |
| JsString.Trim | Ourlovesong/src/hooks/useSurvey.ts:209 | the trimmed text is empty exactly when every character is whitespace, and otherwise starts and ends with non-whitespace |
| JsString.TrimStart | Ourlovesong/src/hooks/useSurvey.ts:209 | the result is a suffix of the input; everything removed is whitespace; the result does not start with whitespace |
| JsString.TrimEnd | Ourlovesong/src/hooks/useSurvey.ts:209 | the result is a prefix of the input; everything removed is whitespace; the result does not end with whitespace |
| JsString.SlicePrefix | Ourlovesong/src/lib/utils.ts:54 | slice(0, end) is a prefix whose length is end clamped to the text, counted from the back when end is negative |
| JsString.Split | Ourlovesong/src/hooks/useTranslation.ts:39 | splitting yields at least one part, and no part contains the separator |
| JsString.JoinSplit | Ourlovesong/src/hooks/useTranslation.ts:39 | joining the parts of a split gives back the key |
| JsString.SplitJoin | Ourlovesong/src/hooks/useTranslation.ts:39 | splitting the join of separator-free segments gives back the segments |
| Translation.Walk | Ourlovesong/src/hooks/useTranslation.ts:42-49 | the empty path yields the dictionary itself; a segment present in an object descends into its value; a segment missing from an object, or any value that is not an object, stops the walk |
| Translation.WalkAppend | Ourlovesong/src/hooks/useTranslation.ts:42-49 | walking p + q is walking p, then q from where p ends, and stops if p stops |
| Translation.IndexKey | Ourlovesong/src/hooks/useTranslation.ts:42 | an array index's property name is the numeral `String(i)` writes: digits whose left-to-right decimal value is i, with no leading zero except for 0 itself, one digit exactly for indices below 10 |
| Translation.IndexKeyOfNumeral | Ourlovesong/src/hooks/useTranslation.ts:42 | every numeral without a leading zero is the property name of the index it denotes, so index names and canonical numerals correspond one to one |
| Translation.IndexKeyInjective | Ourlovesong/src/hooks/useTranslation.ts:42 | distinct indices have distinct property names |
| Translation.JsonArray | Ourlovesong/src/hooks/useTranslation.ts:42-43 | an array is walkable: each index name leads to its element and "length" leads to a non-string |
| Translation.ArrayIndexDescends | Ourlovesong/src/hooks/useTranslation.ts:42-49 | an index segment walks into that element, and "length" ends at a number |
| Translation.ArrayElementTranslates | Ourlovesong/src/components/landing/Testimonials.tsx:46-51 | a dotted key through an array index, like `testimonials.items.0.quote`, translates to the element's string |
| Translation.FirstTestimonialQuote | Ourlovesong/src/components/landing/Testimonials.tsx:46 | `testimonials.items.0.quote` translates to the quote string of the array's first element |
| Translation.T | Ourlovesong/src/hooks/useTranslation.ts:38-64 | a missing segment or a non-string result yields the key; a found string is returned as is without params and substituted with params |
| Translation.EmptyDictionaryFallsBack | Ourlovesong/src/hooks/useTranslation.ts:17-24 | with the empty dictionary used before loading and after a failed load, every key translates to itself |
| Translation.FoundStringVerbatim | Ourlovesong/src/hooks/useTranslation.ts:56-63 | without params, a dotted key whose path leads to a string yields that string verbatim |
| Translation.NestedObjectFallsBack | Ourlovesong/src/hooks/useTranslation.ts:51-54 | a key whose path ends at a nested object translates to itself |
| Translation.WordLength | Ourlovesong/src/hooks/useTranslation.ts:58 | the longest leading run of `\w` characters |
| Translation.PlaceholderAt | Ourlovesong/src/hooks/useTranslation.ts:58 | a recognised placeholder is `{{` + a non-empty word + `}}` at the start of the text |
| Translation.PlaceholderAtPlaceholder | Ourlovesong/src/hooks/useTranslation.ts:58 | a text starting with `{{word}}` is recognised as exactly that placeholder |
| Translation.WordLengthOfWord | Ourlovesong/src/hooks/useTranslation.ts:58 | the word run of a word followed by a non-word character is that word |
| Translation.SubstitutePlaceholder | Ourlovesong/src/hooks/useTranslation.ts:57-61 | a placeholder whose name is a parameter becomes its value; any other placeholder stays exactly as written |
| Translation.SubstitutePlainPrefix | Ourlovesong/src/hooks/useTranslation.ts:58-60 | text containing no `{` is copied unchanged ahead of whatever follows |
| Translation.SubstituteCopiesLiteralText | Ourlovesong/src/hooks/useTranslation.ts:58-60 | for any params, text at none of whose positions a placeholder starts is copied unchanged ahead of the substitution of what follows |
| Translation.SubstituteCopiesLiteral | Ourlovesong/src/hooks/useTranslation.ts:58-60 | a leading run of positions where no placeholder starts is copied verbatim, for any params |
| Translation.SubstituteOnlyTouchesPlaceholders | Ourlovesong/src/hooks/useTranslation.ts:58-60 | when every parameter's value is its own placeholder text, every text is returned unchanged, stray braces included |
| Translation.StrayBraceKept | Ourlovesong/src/hooks/useTranslation.ts:58-60 | a lone `{` that starts no placeholder is kept while the placeholder after it is replaced |
| Translation.SubstituteNoParams | Ourlovesong/src/hooks/useTranslation.ts:58-60 | with no parameters every text is left as written |
| Translation.EmptyParamsSameAsNone | Ourlovesong/src/hooks/useTranslation.ts:57-63 | an empty params object gives the same result as no params |
| Translation.PartialSubstitution | Ourlovesong/src/hooks/useTranslation.ts:57-61 | for any two distinct words and any brace-free text between them, `{{given}}` + text + `{{missing}}` with only `given` defined becomes its value, the text and `{{missing}}` as written |
| Utils.TruncateText | Ourlovesong/src/lib/utils.ts:52-55 | a text that fits is unchanged; a longer one becomes a prefix plus "..."; with maxLength ≥ 3 it is exactly text[..maxLength-3] + "..." of length maxLength; below 3 it is longer than maxLength |
| Utils.TruncateFits | Ourlovesong/src/lib/utils.ts:52-55 | with maxLength ≥ 3 the result never exceeds maxLength |
| Utils.TruncateIdempotent | Ourlovesong/src/lib/utils.ts:52-55 | with maxLength ≥ 3 truncating twice equals truncating once |
| Utils.TruncateChangesExactlyLongTexts | Ourlovesong/src/lib/utils.ts:52-55 | with maxLength ≥ 3 the text is unchanged exactly when it fits |
| Utils.TruncateBelowEllipsisLength | Ourlovesong/src/lib/utils.ts:54 | with maxLength 2, "hello" becomes "hell..." because the slice end counts from the back |
| Utils.EstimatedDeliveryDay | Ourlovesong/src/lib/utils.ts:25-29 | delivery is after today: one day later exactly for rush, seven days later exactly for standard |
| Utils.DeliveryMonotone | Ourlovesong/src/lib/utils.ts:25-29 | an order placed later is never due earlier, and a rush order is never due after any order placed the same day or later |
| Checkout.BaseUrl | Ourlovesong/src/app/api/checkout/route.ts:16 | the configured base URL unless it is unset or empty, else the localhost default; never empty |
| Checkout.BuildSession | Ourlovesong/src/app/api/checkout/route.ts:18-57 | payment mode; the base item (1699 cents, EUR, qty 1) always first; the instant item added exactly when instant delivery is requested (1 or 2 items); missing fields are '' in metadata; the card message is its first min(500, length) characters; priority tier "instant" exactly for instant delivery; return URLs built on the base URL |
| Checkout.TotalCharged | Ourlovesong/src/app/api/checkout/route.ts:18-43 | the total charged is 1699 + (2000 if instant delivery) cents |
| Checkout.LineItemsInEuroSingleQuantity | Ourlovesong/src/app/api/checkout/route.ts:18-43 | every line item is in euros with quantity 1 |
| Checkout.CardMessageKept | Ourlovesong/src/app/api/checkout/route.ts:52 | a message of at most 500 characters is passed on whole; a longer one is cut to its first 500 |

## Left out

- Raycasting, the mapping of the pointer to normalized device coordinates, and the camera's world direction are three.js calls (src/interaction.js:112-124, 160-164). A release event carries their answers instead: the ancestor chain of the nearest hit and the camera's position and unit forward direction.
- The scene graph's parent links are not modelled as pointers. The ancestor chain arrives as a finite sequence, because three.js keeps the graph acyclic.
- Floating point is not modelled. Transforms are real numbers, so lerp steps are exact. "Distance below 0.01" is compared as squared distance below 0.0001, with no square root. The model does not prove that the animation terminates; `AnimationGapShrinks` only shows that each frame closes 10% of the gap.
- Pointer coordinates are integers. Browsers may report fractional client coordinates.
- Scene nodes are assumed to be at the identity transform until the scene map says otherwise. This is the transform of a freshly constructed three.js node.
- The initial `targetScale` is undefined in the source. The model starts it at 1, and the value is never read before `focusItem` sets it.
- An unreachable `update` case is modelled as partial mutation. If an unfocus completed without a snapshot, the source would throw after clearing the two flags and moving the item, so that is what the model does. `Valid` rules the state out.
- DOM and listener plumbing is left out: `showOverlay`/`hideOverlay` (modelled as a boolean), `setupEventListeners` and `dispose`.
- The render loop and scene/asset setup are left out (src/scene.js, src/desk.js, src/lighting.js, src/controls.js, src/main.js). They are three.js configuration and asset loading.
- In useSurvey, React state cells, effects, `isLoading`, localStorage and JSON I/O, and `clearSurveyData` are left out. Only the values written and read back are modelled.
- Stored answers of the wrong JSON type cannot be represented, for example a relationship string that names no relationship.
- `goToStep` with a fractional argument is not modelled; steps are integers.
- An error entry set to `undefined` is modelled as the entry being removed.
- In useTranslation, `fetch` and the loading flag are left out.
- Inherited `Object.prototype` names are not modelled. In the dictionary such keys reach a non-string and fall back to the key anyway. As placeholder names they would be replaced by the inherited function's text; the model treats only own parameters as defined.
- Numeric parameters are taken as already converted to strings.
- JavaScript strings are UTF-16 code units. Here one `char` stands for one code unit.
- In utils, `cn`, `formatDate`, `formatCurrency`, `generateId` and `delay` are left out; they wrap clsx, Intl, randomness and timers. Calendar dates are reduced to day numbers.
- For checkout, the Stripe session call, the JSON response and the 500 error path are left out. Non-string truthy values in metadata fields are not represented. `instantDelivery` is taken as already reduced to its truthiness.
- The Stripe webhook, the generative-text route and its test script are left out; they are thin network clients. So are the React/Next UI components, pages and styling, and the Hero countdown, which depends on the clock and randomness.

=== FILE: checkout.dfy ===
/**
 * The checkout endpoint's mapping from the posted order to the parameters of
 * a payment session: the line items (amounts in euro cents), the order
 * metadata and the return URLs. Creating the session is outside the model.
 */
module Checkout {
  import opened Wrappers
  import JsString

  /**
   * The posted order. A field is `None` when the body omits it or sets it to
   * `null`; `instantDelivery` is the truthiness of the posted value.
   */
  datatype CheckoutRequest = CheckoutRequest(
    recipientName: Option<string>,
    relationship: Option<string>,
    backgroundId: Option<string>,
    cardMessage: Option<string>,
    instantDelivery: bool)

  datatype LineItem = LineItem(
    currency: string, name: string, description: Option<string>, unitAmount: nat, quantity: nat)

  datatype Metadata = Metadata(
    recipientName: string, relationship: string, backgroundId: string,
    cardMessage: string, priorityTier: string)

  datatype SessionParams = SessionParams(
    mode: string, lineItems: seq<LineItem>, metadata: Metadata, successUrl: string, cancelUrl: string)

  const BasePrice: nat := 1699
  const InstantDeliveryPrice: nat := 2000
  const MaxCardMessage: nat := 500
  const DefaultBaseUrl: string := "http://localhost:3000"

  const BaseItem := LineItem("eur", "Custom Virtual Date Space", None, BasePrice, 1)

  const InstantItem := LineItem(
    "eur", "Instant Delivery",
    Some("Skip the ~2 hour wait \U{2014} get your date space immediately"),
    InstantDeliveryPrice, 1)

  /** `value || ''`: a missing or empty field becomes the empty string. */
  function OrEmpty(value: Option<string>): (r: string)
    ensures value.None? ==> r == ""
    ensures value.Some? ==> r == value.value
  {
    value.GetOr("")
  }

  /** The site's base URL: the configured one unless it is unset or empty. */
  function BaseUrl(configured: Option<string>): (r: string)
    ensures r != ""
    ensures configured.Some? && configured.value != "" ==> r == configured.value
    ensures configured.None? || configured.value == "" ==> r == "http://localhost:3000"
  {
    if configured.Some? && configured.value != "" then configured.value else DefaultBaseUrl
  }

  /** What the customer is charged: the sum of amount times quantity over the line items. */
  function Total(items: seq<LineItem>): nat
    decreases |items|
  {
    if |items| == 0 then 0 else items[0].unitAmount * items[0].quantity + Total(items[1..])
  }

  /** The session parameters built from the posted order. */
  function BuildSession(req: CheckoutRequest, configuredBaseUrl: Option<string>): (r: SessionParams)
    ensures r.mode == "payment"
    ensures |r.lineItems| == (if req.instantDelivery then 2 else 1)
    ensures r.lineItems[0] == BaseItem
    ensures req.instantDelivery ==> r.lineItems[1] == InstantItem
    ensures r.metadata.recipientName == OrEmpty(req.recipientName)
    ensures r.metadata.relationship == OrEmpty(req.relationship)
    ensures r.metadata.backgroundId == OrEmpty(req.backgroundId)
    ensures r.metadata.cardMessage <= OrEmpty(req.cardMessage)
    ensures |r.metadata.cardMessage| == if |OrEmpty(req.cardMessage)| < MaxCardMessage
      then |OrEmpty(req.cardMessage)| else MaxCardMessage
    ensures r.metadata.priorityTier == (if req.instantDelivery then "instant" else "standard")
    ensures r.successUrl == BaseUrl(configuredBaseUrl) + "/order/success?session_id={CHECKOUT_SESSION_ID}"
    ensures r.cancelUrl == BaseUrl(configuredBaseUrl) + "/order/survey"
  {
    var items := [BaseItem] + (if req.instantDelivery then [InstantItem] else []);
    var base := BaseUrl(configuredBaseUrl);
    SessionParams(
      "payment",
      items,
      Metadata(
        OrEmpty(req.recipientName),
        OrEmpty(req.relationship),
        OrEmpty(req.backgroundId),
        JsString.SlicePrefix(OrEmpty(req.cardMessage), MaxCardMessage),
        if req.instantDelivery then "instant" else "standard"),
      base + "/order/success?session_id={CHECKOUT_SESSION_ID}",
      base + "/order/survey")
  }

  /** The amount charged is 16.99 EUR, plus 20.00 EUR for instant delivery. */
  lemma TotalCharged(req: CheckoutRequest, configuredBaseUrl: Option<string>)
    ensures Total(BuildSession(req, configuredBaseUrl).lineItems)
         == BasePrice + (if req.instantDelivery then InstantDeliveryPrice else 0)
  {
    var items := BuildSession(req, configuredBaseUrl).lineItems;
    assert Total(items) == BasePrice + Total(items[1..]);
    if req.instantDelivery {
      assert Total(items[1..]) == InstantDeliveryPrice + Total(items[2..]);
    }
  }

  /** Every line item is charged in euros, one at a time. */
  lemma LineItemsInEuroSingleQuantity(req: CheckoutRequest, configuredBaseUrl: Option<string>)
    ensures forall i :: 0 <= i < |BuildSession(req, configuredBaseUrl).lineItems| ==>
      BuildSession(req, configuredBaseUrl).lineItems[i].currency == "eur" &&
      BuildSession(req, configuredBaseUrl).lineItems[i].quantity == 1
  {
  }

  /** A card message that fits is passed on whole; a longer one is cut to its first 500 characters. */
  lemma CardMessageKept(req: CheckoutRequest, configuredBaseUrl: Option<string>)
    requires req.cardMessage.Some?
    ensures |req.cardMessage.value| <= MaxCardMessage ==>
      BuildSession(req, configuredBaseUrl).metadata.cardMessage == req.cardMessage.value
    ensures |req.cardMessage.value| > MaxCardMessage ==>
      BuildSession(req, configuredBaseUrl).metadata.cardMessage == req.cardMessage.value[..MaxCardMessage]
  {
  }
}

=== FILE: interaction.dfy ===
/**
 * The item-inspection engine of the 3D viewer: click-vs-drag classification,
 * hit resolution against the registered items, and the focus / unfocus
 * animation state machine driven once per rendered frame.
 *
 * The engine is an immutable record; every input event is a pure function from
 * the record before the event to the record after it. Browser plumbing, the
 * raycaster and the camera are outside: an event carries what they would have
 * answered (the ancestor chain of the nearest hit, the camera's pose).
 */
module Interaction {
  import opened Wrappers

  /** Identity of a scene-graph node. */
  type NodeId = nat

  datatype Vec3 = Vec3(x: real, y: real, z: real)

  const Origin := Vec3(0.0, 0.0, 0.0)

  /** Position, Euler rotation and per-axis scale of a node. */
  datatype Transform = Transform(position: Vec3, rotation: Vec3, scale: Vec3)

  /** The transform of a freshly constructed scene node. */
  const Identity := Transform(Origin, Origin, Vec3(1.0, 1.0, 1.0))

  /** A pointer position in client pixels. */
  datatype Point = Point(x: int, y: int)

  /** The camera as the engine reads it: world position and unit forward direction. */
  datatype Camera = Camera(position: Vec3, direction: Vec3)

  const DragThreshold: int := 5
  const DragSensitivity: real := 0.01
  const PitchLimit: real := 0.5
  const FocusDistance: real := 1.2
  const FocusScale: real := 1.5
  const AnimationLerp: real := 0.1
  const InspectLerp: real := 0.15
  const SettleDistance: real := 0.01

  /**
   * The engine's whole state. `pitch`/`yaw` are the inspect rotation offset
   * (x and y of the source's `inspectRotation`); `controlsEnabled` is the
   * orbit controls' `enabled` flag and `overlayShown` whether the inspect
   * overlay carries its `active` class.
   */
  datatype Engine = Engine(
    registry: seq<NodeId>,
    scene: map<NodeId, Transform>,
    focused: Option<NodeId>,
    original: Option<Transform>,
    isAnimating: bool,
    isFocused: bool,
    unfocusing: bool,
    mouseDownPos: Point,
    lastMousePos: Point,
    isDragging: bool,
    isMouseDown: bool,
    pitch: real,
    yaw: real,
    targetPosition: Vec3,
    baseRotation: Vec3,
    targetScale: real,
    controlsEnabled: bool,
    overlayShown: bool
  )

  /** One input to the engine: a registration, a pointer or key event, or a rendered frame. */
  datatype Event =
    | Register(node: NodeId)
    | MouseDown(at: Point)
    | MouseMove(at: Point)
    | MouseUp(hitChain: seq<NodeId>, camera: Camera)
    | KeyDown(key: string)
    | Frame

  // ---------------------------------------------------------------------------
  // Arithmetic helpers

  function Add(a: Vec3, b: Vec3): Vec3 {
    Vec3(a.x + b.x, a.y + b.y, a.z + b.z)
  }

  function Scale(a: Vec3, k: real): Vec3 {
    Vec3(a.x * k, a.y * k, a.z * k)
  }

  /** Moves `a` the fraction `t` of the way towards `b`. */
  function Lerp(a: real, b: real, t: real): real {
    a + (b - a) * t
  }

  function LerpVec(a: Vec3, b: Vec3, t: real): Vec3 {
    Vec3(Lerp(a.x, b.x, t), Lerp(a.y, b.y, t), Lerp(a.z, b.z, t))
  }

  /** The square of the Euclidean distance between two points in space. */
  function DistanceSquared(a: Vec3, b: Vec3): real {
    (a.x - b.x) * (a.x - b.x) + (a.y - b.y) * (a.y - b.y) + (a.z - b.z) * (a.z - b.z)
  }

  /** The square of the distance between two pointer positions, in pixels squared. */
  function PixelDistanceSquared(a: Point, b: Point): int {
    (b.x - a.x) * (b.x - a.x) + (b.y - a.y) * (b.y - a.y)
  }

  /** A move to `b` turns the gesture that started at `a` into a drag. */
  predicate BeyondDragThreshold(a: Point, b: Point) {
    PixelDistanceSquared(a, b) > DragThreshold * DragThreshold
  }

  function Min(a: real, b: real): real { if a <= b then a else b }

  function Max(a: real, b: real): real { if a >= b then a else b }

  /** The pitch clamp: `Math.max(-0.5, Math.min(0.5, v))`. */
  function ClampPitch(v: real): (r: real)
    ensures -PitchLimit <= r <= PitchLimit
    ensures -PitchLimit <= v <= PitchLimit ==> r == v
    ensures v > PitchLimit ==> r == PitchLimit
    ensures v < -PitchLimit ==> r == -PitchLimit
  {
    Max(-PitchLimit, Min(PitchLimit, v))
  }

  /** The transform of node `n`; a node the map does not mention is still at the identity. */
  function TransformOf(scene: map<NodeId, Transform>, n: NodeId): Transform {
    if n in scene then scene[n] else Identity
  }

  // ---------------------------------------------------------------------------
  // States

  /** The engine as constructed: nothing registered, nothing focused, controls on, overlay off. */
  function Init(scene: map<NodeId, Transform>): Engine {
    Engine(
      registry := [], scene := scene,
      focused := None, original := None,
      isAnimating := false, isFocused := false, unfocusing := false,
      mouseDownPos := Point(0, 0), lastMousePos := Point(0, 0),
      isDragging := false, isMouseDown := false,
      pitch := 0.0, yaw := 0.0,
      targetPosition := Origin, baseRotation := Origin, targetScale := 1.0,
      controlsEnabled := true, overlayShown := false)
  }

  /** No focus session exists. */
  predicate Idle(e: Engine) {
    e.focused.None?
  }

  /**
   * The invariant of every reachable state. The four phases are: idle;
   * presenting (animating towards the inspect pose); inspecting (settled in
   * the inspect pose); returning (animating back, overlay already hidden).
   */
  predicate Valid(e: Engine) {
    && (e.focused.Some? <==> e.original.Some?)
    && (e.controlsEnabled <==> e.focused.None?)
    && (e.overlayShown <==> e.isFocused)
    && (e.isFocused ==> e.focused.Some? && !e.unfocusing)
    && (e.unfocusing ==> e.isAnimating && !e.isFocused && e.focused.Some?)
    && (e.focused.Some? ==> e.isFocused || e.unfocusing)
    && (e.focused.None? ==> !e.isAnimating)
    && -PitchLimit <= e.pitch <= PitchLimit
    && (e.isFocused ==> e.targetScale == FocusScale && e.baseRotation == Origin)
    && (e.unfocusing ==>
          && e.targetScale == 1.0
          && e.targetPosition == e.original.value.position
          && e.baseRotation == e.original.value.rotation)
  }

  /**
   * Where node `n` belongs outside any focus session: its snapshot while it is
   * the focused item, its current transform otherwise.
   */
  function Home(e: Engine, n: NodeId): Transform {
    if e.focused == Some(n) && e.original.Some? then e.original.value else TransformOf(e.scene, n)
  }

  /** The fields that describe the focus session and the scene are the same in both states. */
  predicate SameSession(a: Engine, b: Engine) {
    && a.registry == b.registry && a.scene == b.scene
    && a.focused == b.focused && a.original == b.original
    && a.isAnimating == b.isAnimating && a.isFocused == b.isFocused && a.unfocusing == b.unfocusing
    && a.targetPosition == b.targetPosition && a.baseRotation == b.baseRotation
    && a.targetScale == b.targetScale
    && a.controlsEnabled == b.controlsEnabled && a.overlayShown == b.overlayShown
  }

  // ---------------------------------------------------------------------------
  // Hit resolution

  /**
   * The first node of `chain` (the nearest hit, then its parent, grandparent,
   * ... up to the root) that is registered; `None` when no ancestor is.
   */
  function FirstRegistered(chain: seq<NodeId>, registry: seq<NodeId>): (r: Option<NodeId>)
    ensures r.None? <==> forall i :: 0 <= i < |chain| ==> chain[i] !in registry
    ensures r.Some? ==>
      && r.value in registry
      && exists k :: 0 <= k < |chain| && chain[k] == r.value &&
           forall j :: 0 <= j < k ==> chain[j] !in registry
  {
    if |chain| == 0 then None
    else if chain[0] in registry then Some(chain[0])
    else
      var r := FirstRegistered(chain[1..], registry);
      assert forall i :: 1 <= i < |chain| ==> chain[i] == chain[1..][i - 1];
      if r.Some? then
        var k :| 0 <= k < |chain[1..]| && chain[1..][k] == r.value &&
          forall j :: 0 <= j < k ==> chain[1..][j] !in registry;
        assert chain[k + 1] == r.value;
        assert forall j :: 0 <= j < k + 1 ==> chain[j] !in registry by {
          forall j | 0 <= j < k + 1 ensures chain[j] !in registry {
            if j > 0 { assert chain[j] == chain[1..][j - 1]; }
          }
        }
        r
      else r
  }

  /** The parent walk of a click: climb from the hit node until a registered node is reached. */
  method ResolveHit(chain: seq<NodeId>, registry: seq<NodeId>) returns (r: Option<NodeId>)
    ensures r == FirstRegistered(chain, registry)
  {
    var i := 0;
    while i < |chain| && chain[i] !in registry
      invariant 0 <= i <= |chain|
      invariant FirstRegistered(chain[i..], registry) == FirstRegistered(chain, registry)
    {
      assert chain[i..][1..] == chain[i + 1..];
      i := i + 1;
    }
    if i < |chain| {
      r := Some(chain[i]);
    } else {
      r := None;
    }
  }

  // ---------------------------------------------------------------------------
  // Focus transitions

  /** Starts presenting `item` in front of `camera`; ignored while an animation is in flight. */
  function FocusItem(e: Engine, item: NodeId, camera: Camera): (r: Engine)
    ensures e.isAnimating ==> r == e
    ensures !e.isAnimating ==>
      && r.focused == Some(item) && r.isFocused && r.isAnimating
      && r.original == Some(TransformOf(e.scene, item))
      && r.pitch == 0.0 && r.yaw == 0.0
      && r.targetPosition == Add(camera.position, Scale(camera.direction, FocusDistance))
      && r.targetScale == FocusScale && r.baseRotation == Origin
      && !r.controlsEnabled && r.overlayShown
    ensures r.scene == e.scene && r.registry == e.registry
  {
    if e.isAnimating then e
    else
      e.(focused := Some(item), isAnimating := true, isFocused := true,
         pitch := 0.0, yaw := 0.0,
         original := Some(TransformOf(e.scene, item)),
         targetPosition := Add(camera.position, Scale(camera.direction, FocusDistance)),
         baseRotation := Origin, targetScale := FocusScale,
         controlsEnabled := false, overlayShown := true)
  }

  /**
   * Starts the return animation of the focused item. There is deliberately no
   * guard against an animation in flight: it may interrupt a presentation.
   */
  function UnfocusItem(e: Engine): (r: Engine)
    ensures e.focused.None? || e.original.None? ==> r == e
    ensures e.focused.Some? && e.original.Some? ==>
      && r.focused == e.focused && r.original == e.original
      && !r.isFocused && r.isAnimating && r.unfocusing && !r.overlayShown
      && r.targetPosition == e.original.value.position
      && r.baseRotation == e.original.value.rotation
      && r.targetScale == 1.0 && r.pitch == 0.0 && r.yaw == 0.0
    ensures r.scene == e.scene && r.controlsEnabled == e.controlsEnabled
  {
    if e.focused.None? || e.original.None? then e
    else
      var o := e.original.value;
      e.(isAnimating := true, isFocused := false,
         targetPosition := o.position, baseRotation := o.rotation, targetScale := 1.0,
         pitch := 0.0, yaw := 0.0, unfocusing := true, overlayShown := false)
  }

  // ---------------------------------------------------------------------------
  // Input events

  function Register(e: Engine, item: NodeId): (r: Engine)
    ensures r.registry == e.registry + [item]
    ensures item in r.registry
    ensures r.(registry := e.registry) == e
  {
    e.(registry := e.registry + [item])
  }

  /** A button press starts a new gesture at `p`. */
  function OnMouseDown(e: Engine, p: Point): (r: Engine)
    ensures r.isMouseDown && !r.isDragging
    ensures r.mouseDownPos == p && r.lastMousePos == p
    ensures r.pitch == e.pitch && r.yaw == e.yaw
    ensures SameSession(e, r)
  {
    e.(mouseDownPos := p, lastMousePos := p, isDragging := false, isMouseDown := true)
  }

  /**
   * A pointer move to `p`: marks the gesture as a drag once it leaves the
   * 5-pixel disc around the press point, and while inspecting turns the
   * incremental movement into yaw and (clamped) pitch.
   */
  function OnMouseMove(e: Engine, p: Point): (r: Engine)
    ensures !e.isMouseDown ==> r == e
    ensures e.isMouseDown ==>
      && r.isDragging == (e.isDragging || BeyondDragThreshold(e.mouseDownPos, p))
      && r.lastMousePos == p
    ensures r.isMouseDown == e.isMouseDown && r.mouseDownPos == e.mouseDownPos
    ensures e.isDragging ==> r.isDragging
    ensures (r.pitch, r.yaw) != (e.pitch, e.yaw) ==>
      e.isMouseDown && e.isFocused && r.isDragging && e.focused.Some?
    ensures (r.pitch, r.yaw) != (e.pitch, e.yaw) ==> -PitchLimit <= r.pitch <= PitchLimit
    ensures e.isMouseDown && e.isFocused && r.isDragging && e.focused.Some? ==>
      && r.yaw == e.yaw + (p.x - e.lastMousePos.x) as real * DragSensitivity
      && r.pitch == ClampPitch(e.pitch + (p.y - e.lastMousePos.y) as real * DragSensitivity)
    ensures SameSession(e, r)
  {
    if !e.isMouseDown then e
    else
      var dragging := e.isDragging || BeyondDragThreshold(e.mouseDownPos, p);
      var rotated :=
        if e.isFocused && dragging && e.focused.Some? then
          e.(yaw := e.yaw + (p.x - e.lastMousePos.x) as real * DragSensitivity,
             pitch := ClampPitch(e.pitch + (p.y - e.lastMousePos.y) as real * DragSensitivity))
        else e;
      rotated.(isDragging := dragging, lastMousePos := p)
  }

  /**
   * A click at the pointer position: unfocuses when an item is focused,
   * otherwise focuses the registered item the hit resolves to, if any.
   */
  function HandleClick(e: Engine, hitChain: seq<NodeId>, camera: Camera): (r: Engine)
    ensures e.isFocused ==> r == UnfocusItem(e)
    ensures !e.isFocused && FirstRegistered(hitChain, e.registry).None? ==> r == e
    ensures !e.isFocused && FirstRegistered(hitChain, e.registry).Some? ==>
      r == FocusItem(e, FirstRegistered(hitChain, e.registry).value, camera)
    ensures r.focused.Some? && r.focused != e.focused ==> r.focused.value in e.registry
  {
    if e.isFocused then UnfocusItem(e)
    else
      match FirstRegistered(hitChain, e.registry)
      case None => e
      case Some(item) => FocusItem(e, item, camera)
  }

  /** Button release: a gesture that never became a drag is a click. */
  function OnMouseUp(e: Engine, hitChain: seq<NodeId>, camera: Camera): (r: Engine)
    ensures !r.isMouseDown
    ensures !e.isDragging ==> r == HandleClick(e, hitChain, camera).(isMouseDown := false)
    ensures e.isDragging ==> r == e.(isMouseDown := false)
  {
    var clicked := if !e.isDragging then HandleClick(e, hitChain, camera) else e;
    clicked.(isMouseDown := false)
  }

  /** Escape unfocuses, but only while an item is focused. */
  function OnKeyDown(e: Engine, key: string): (r: Engine)
    ensures key != "Escape" || !e.isFocused ==> r == e
    ensures key == "Escape" && e.isFocused ==> r == UnfocusItem(e)
    ensures r.controlsEnabled == e.controlsEnabled && r.scene == e.scene
  {
    if key == "Escape" && e.isFocused then UnfocusItem(e) else e
  }

  // ---------------------------------------------------------------------------
  // Per-frame animation

  /** One frame of the presenting/returning animation applied to `cur`. */
  function AnimationFrame(e: Engine, cur: Transform): (r: Transform)
    // Every axis of position, rotation and scale closes 10% of its gap to the target.
    ensures r.position.x - e.targetPosition.x == 0.9 * (cur.position.x - e.targetPosition.x)
    ensures r.position.y - e.targetPosition.y == 0.9 * (cur.position.y - e.targetPosition.y)
    ensures r.position.z - e.targetPosition.z == 0.9 * (cur.position.z - e.targetPosition.z)
    ensures r.rotation.x - (e.baseRotation.x + e.pitch) == 0.9 * (cur.rotation.x - (e.baseRotation.x + e.pitch))
    ensures r.rotation.y - (e.baseRotation.y + e.yaw) == 0.9 * (cur.rotation.y - (e.baseRotation.y + e.yaw))
    ensures r.rotation.z - e.baseRotation.z == 0.9 * (cur.rotation.z - e.baseRotation.z)
    ensures r.scale.x - e.targetScale == 0.9 * (cur.scale.x - e.targetScale)
    ensures r.scale.x == r.scale.y == r.scale.z
    ensures cur.scale.x == e.targetScale ==> r.scale.x == e.targetScale
    ensures cur.position == e.targetPosition ==> r.position == e.targetPosition
  {
    var position := LerpVec(cur.position, e.targetPosition, AnimationLerp);
    var rotation := Vec3(
      Lerp(cur.rotation.x, e.baseRotation.x + e.pitch, AnimationLerp),
      Lerp(cur.rotation.y, e.baseRotation.y + e.yaw, AnimationLerp),
      Lerp(cur.rotation.z, e.baseRotation.z, AnimationLerp));
    var s := Lerp(cur.scale.x, e.targetScale, AnimationLerp);
    Transform(position, rotation, Vec3(s, s, s))
  }

  /** One frame of steady inspection: only pitch and yaw follow the drag offset. */
  function InspectFrame(e: Engine, cur: Transform): (r: Transform)
    ensures r.position == cur.position && r.scale == cur.scale && r.rotation.z == cur.rotation.z
    ensures r.rotation.x - (e.baseRotation.x + e.pitch) == 0.85 * (cur.rotation.x - (e.baseRotation.x + e.pitch))
    ensures r.rotation.y - (e.baseRotation.y + e.yaw) == 0.85 * (cur.rotation.y - (e.baseRotation.y + e.yaw))
  {
    cur.(rotation := cur.rotation.(
      x := Lerp(cur.rotation.x, e.baseRotation.x + e.pitch, InspectLerp),
      y := Lerp(cur.rotation.y, e.baseRotation.y + e.yaw, InspectLerp)))
  }

  /** The animation has arrived: the item is closer than 0.01 to its target position. */
  predicate Settled(position: Vec3, target: Vec3) {
    DistanceSquared(position, target) < SettleDistance * SettleDistance
  }

  /**
   * The per-frame update. With no focused item it does nothing. While
   * animating it blends the item towards its target; on arrival it stops
   * animating, and if the item was returning it snaps the item exactly onto
   * its snapshot, ends the session and re-enables the orbit controls.
   * While inspecting it only blends the rotation towards the drag offset.
   */
  function Update(e: Engine): (r: Engine)
    ensures e.focused.None? ==> r == e
    ensures forall m: NodeId :: Some(m) != e.focused ==> TransformOf(r.scene, m) == TransformOf(e.scene, m)
    ensures r.registry == e.registry && r.isFocused == e.isFocused && r.overlayShown == e.overlayShown
    ensures r.pitch == e.pitch && r.yaw == e.yaw
    ensures r.controlsEnabled != e.controlsEnabled ==>
      && e.unfocusing && r.controlsEnabled && r.focused.None? && r.original.None?
      && e.original.Some? && TransformOf(r.scene, e.focused.value) == e.original.value
    ensures e.focused.Some? && e.isAnimating && e.unfocusing && e.original.Some? &&
            Settled(AnimationFrame(e, TransformOf(e.scene, e.focused.value)).position, e.targetPosition) ==>
      && r.focused.None? && r.original.None? && r.controlsEnabled
      && !r.isAnimating && !r.unfocusing
      && TransformOf(r.scene, e.focused.value) == e.original.value
    // A frame that does not complete a return blends the item one animation step on.
    ensures e.focused.Some? && e.isAnimating &&
            !(e.unfocusing && e.original.Some? &&
              Settled(AnimationFrame(e, TransformOf(e.scene, e.focused.value)).position, e.targetPosition)) ==>
      && r.focused == e.focused && r.original == e.original
      && TransformOf(r.scene, e.focused.value) == AnimationFrame(e, TransformOf(e.scene, e.focused.value))
      && (r.isAnimating <==>
            !Settled(AnimationFrame(e, TransformOf(e.scene, e.focused.value)).position, e.targetPosition))
    // A presentation that arrives stops animating and leaves the item under inspection.
    ensures e.focused.Some? && e.isAnimating && !e.unfocusing &&
            Settled(AnimationFrame(e, TransformOf(e.scene, e.focused.value)).position, e.targetPosition) ==>
      && !r.isAnimating && !r.unfocusing && r.focused == e.focused && r.original == e.original
      && r.isFocused == e.isFocused && r.controlsEnabled == e.controlsEnabled
    // Steady inspection only turns the item towards the drag offset.
    ensures e.focused.Some? && !e.isAnimating && e.isFocused ==>
      && r.focused == e.focused && r.original == e.original && !r.isAnimating
      && TransformOf(r.scene, e.focused.value) == InspectFrame(e, TransformOf(e.scene, e.focused.value))
  {
    match e.focused
    case None => e
    case Some(n) =>
      var cur := TransformOf(e.scene, n);
      if e.isAnimating then
        var next := AnimationFrame(e, cur);
        if Settled(next.position, e.targetPosition) then
          if e.unfocusing then
            match e.original
            case Some(o) =>
              e.(isAnimating := false, unfocusing := false, scene := e.scene[n := o],
                 focused := None, original := None, controlsEnabled := true)
            // The source would throw here, after clearing both flags and moving the item.
            case None => e.(isAnimating := false, unfocusing := false, scene := e.scene[n := next])
          else e.(isAnimating := false, scene := e.scene[n := next])
        else e.(scene := e.scene[n := next])
      else if e.isFocused then e.(scene := e.scene[n := InspectFrame(e, cur)])
      else e
  }

  // ---------------------------------------------------------------------------
  // Runs

  function Step(e: Engine, ev: Event): Engine {
    match ev
    case Register(n) => Register(e, n)
    case MouseDown(p) => OnMouseDown(e, p)
    case MouseMove(p) => OnMouseMove(e, p)
    case MouseUp(chain, camera) => OnMouseUp(e, chain, camera)
    case KeyDown(key) => OnKeyDown(e, key)
    case Frame => Update(e)
  }

  function Run(e: Engine, evs: seq<Event>): Engine
    decreases |evs|
  {
    if |evs| == 0 then e else Run(Step(e, evs[0]), evs[1..])
  }

  // ---------------------------------------------------------------------------
  // Properties

  lemma InitValid(scene: map<NodeId, Transform>)
    ensures Valid(Init(scene)) && Idle(Init(scene)) && Init(scene).controlsEnabled
    ensures !Init(scene).overlayShown
  {
  }

  /** Every event keeps the reachable-state invariant. */
  lemma StepPreservesValid(e: Engine, ev: Event)
    requires Valid(e)
    ensures Valid(Step(e, ev))
  {
    match ev
    case Register(n) =>
    case MouseDown(p) =>
    case MouseMove(p) =>
    case MouseUp(chain, camera) =>
    case KeyDown(key) =>
    case Frame =>
  }

  lemma {:induction false} RunPreservesValid(e: Engine, evs: seq<Event>)
    requires Valid(e)
    ensures Valid(Run(e, evs))
    decreases |evs|
  {
    if |evs| > 0 {
      StepPreservesValid(e, evs[0]);
      RunPreservesValid(Step(e, evs[0]), evs[1..]);
    }
  }

  /** Every reachable state satisfies the invariant. */
  lemma ReachableValid(scene: map<NodeId, Transform>, evs: seq<Event>)
    ensures Valid(Run(Init(scene), evs))
    ensures Run(Init(scene), evs).controlsEnabled <==> Idle(Run(Init(scene), evs))
    ensures Run(Init(scene), evs).overlayShown <==> Run(Init(scene), evs).isFocused
  {
    InitValid(scene);
    RunPreservesValid(Init(scene), evs);
  }

  /** No event moves a node away from where it belongs outside a session. */
  lemma StepPreservesHome(e: Engine, ev: Event, n: NodeId)
    requires Valid(e)
    ensures Home(Step(e, ev), n) == Home(e, n)
  {
  }

  lemma {:induction false} RunPreservesHome(e: Engine, evs: seq<Event>, n: NodeId)
    requires Valid(e)
    ensures Home(Run(e, evs), n) == Home(e, n)
    decreases |evs|
  {
    if |evs| > 0 {
      StepPreservesHome(e, evs[0], n);
      StepPreservesValid(e, evs[0]);
      RunPreservesHome(Step(e, evs[0]), evs[1..], n);
    }
  }

  /**
   * Round trip: whatever happens in between, once the engine is idle again
   * every node is exactly at the transform it had when the engine was last idle.
   */
  lemma SessionRestoresScene(e: Engine, evs: seq<Event>)
    requires Valid(e) && Idle(e) && Idle(Run(e, evs))
    ensures forall n :: TransformOf(Run(e, evs).scene, n) == TransformOf(e.scene, n)
  {
    forall n ensures TransformOf(Run(e, evs).scene, n) == TransformOf(e.scene, n) {
      RunPreservesHome(e, evs, n);
    }
  }

  /** A click while an animation is in flight never switches the focused item. */
  lemma ClickWhileAnimatingKeepsItem(e: Engine, chain: seq<NodeId>, camera: Camera)
    requires Valid(e) && e.isAnimating
    ensures OnMouseUp(e, chain, camera).focused == e.focused
  {
  }

  /** The orbit controls are turned back on only by a frame that completes a return. */
  lemma ControlsReenabledOnlyOnReturn(e: Engine, ev: Event)
    requires Valid(e) && !e.controlsEnabled && Step(e, ev).controlsEnabled
    ensures ev.Frame? && e.unfocusing
    ensures TransformOf(Step(e, ev).scene, e.focused.value) == e.original.value
  {
  }

  /** The orbit controls are turned off only by a click that starts a session. */
  lemma ControlsDisabledOnlyOnFocus(e: Engine, ev: Event)
    requires Valid(e) && e.controlsEnabled && !Step(e, ev).controlsEnabled
    ensures ev.MouseUp? && !e.isDragging && Step(e, ev).isFocused && Step(e, ev).overlayShown
    ensures Step(e, ev).focused == FirstRegistered(ev.hitChain, e.registry)
  {
  }

  /** Escape while no item is focused changes nothing. */
  lemma EscapeWhenIdleIsInert(e: Engine, key: string)
    requires Valid(e) && !e.isFocused
    ensures OnKeyDown(e, key) == e
  {
  }

  /**
   * A press at `p0`, one move to `p1` and a release: the release is a click
   * exactly when `p1` lies within 5 pixels of `p0` (a move of exactly 5 pixels
   * is still a click).
   */
  lemma GestureClassification(e: Engine, p0: Point, p1: Point, chain: seq<NodeId>, camera: Camera)
    ensures var moved := OnMouseMove(OnMouseDown(e, p0), p1);
      && (moved.isDragging <==> PixelDistanceSquared(p0, p1) > 25)
      && (PixelDistanceSquared(p0, p1) <= 25 ==>
            OnMouseUp(moved, chain, camera) == HandleClick(moved, chain, camera).(isMouseDown := false))
      && (PixelDistanceSquared(p0, p1) > 25 ==>
            OnMouseUp(moved, chain, camera) == moved.(isMouseDown := false))
  {
  }

  /** Comparing the squared distance with 25 is the same as comparing the distance with 5. */
  lemma DragThresholdIsEuclidean(a: Point, b: Point, distance: real)
    requires distance >= 0.0 && distance * distance == PixelDistanceSquared(a, b) as real
    ensures distance > DragThreshold as real <==> BeyondDragThreshold(a, b)
  {
    if distance > 5.0 {
      assert distance * distance > 5.0 * distance;
    } else {
      assert distance * distance <= 5.0 * distance;
    }
  }

  /** Only a new press ends a drag: no other event clears `isDragging`. */
  lemma StepKeepsDrag(e: Engine, ev: Event)
    requires !ev.MouseDown?
    requires e.isDragging
    ensures Step(e, ev).isDragging
  {
    match ev
    case Register(n) => assert Step(e, ev) == Register(e, n);
    case MouseDown(_) =>
    case MouseMove(p) => assert Step(e, ev) == OnMouseMove(e, p);
    case MouseUp(chain, camera) => assert Step(e, ev) == OnMouseUp(e, chain, camera);
    case KeyDown(key) => assert Step(e, ev) == OnKeyDown(e, key);
    case Frame => assert Step(e, ev) == Update(e);
  }

  /**
   * A drag lasts until the next press, whatever else happens in between
   * (frames, key presses, moves, a release), so its release is never a click.
   */
  lemma {:induction false} DragPersistsUntilPress(e: Engine, evs: seq<Event>)
    requires forall i :: 0 <= i < |evs| ==> !evs[i].MouseDown?
    requires e.isDragging
    ensures Run(e, evs).isDragging
    decreases |evs|
  {
    if |evs| > 0 {
      StepKeepsDrag(e, evs[0]);
      DragPersistsUntilPress(Step(e, evs[0]), evs[1..]);
    }
  }

  /** Each animation frame closes 10% of the gap: the squared distance shrinks by 0.81. */
  lemma AnimationGapShrinks(e: Engine, cur: Transform)
    ensures DistanceSquared(AnimationFrame(e, cur).position, e.targetPosition)
         == 0.81 * DistanceSquared(cur.position, e.targetPosition)
  {
    var p := cur.position;
    var t := e.targetPosition;
    var q := AnimationFrame(e, cur).position;
    assert q.x - t.x == 0.9 * (p.x - t.x);
    assert q.y - t.y == 0.9 * (p.y - t.y);
    assert q.z - t.z == 0.9 * (p.z - t.z);
  }

  /** The frame update itself closes 10% of the gap while the item is still on its way. */
  lemma UpdateClosesGap(e: Engine)
    requires e.focused.Some? && e.isAnimating
    requires !Settled(AnimationFrame(e, TransformOf(e.scene, e.focused.value)).position, e.targetPosition)
    ensures Update(e).isAnimating && Update(e).focused == e.focused
    ensures DistanceSquared(TransformOf(Update(e).scene, e.focused.value).position, e.targetPosition)
         == 0.81 * DistanceSquared(TransformOf(e.scene, e.focused.value).position, e.targetPosition)
  {
    AnimationGapShrinks(e, TransformOf(e.scene, e.focused.value));
  }

  /**
   * The worked example: an item at the identity, the camera at (0, 0, 5)
   * looking down -Z. A click on it presents it at (0, 0, 3.8), scaled 1.5.
   */
  lemma PresentInFrontOfCamera(scene: map<NodeId, Transform>, item: NodeId)
    requires item !in scene
    ensures var e := OnMouseUp(Register(Init(scene), item), [item], Camera(Vec3(0.0, 0.0, 5.0), Vec3(0.0, 0.0, -1.0)));
      && e.focused == Some(item)
      && e.targetPosition == Vec3(0.0, 0.0, 3.8)
      && e.targetScale == 1.5
      && e.original == Some(Identity)
      && !e.controlsEnabled && e.overlayShown
  {
  }
}

=== FILE: js_string.dfy ===
/**
 * The few ECMAScript string operations the web app relies on, with their
 * edge cases: `trim`, `slice(0, end)` with a possibly negative end, and
 * `split` on a one-character separator. Strings are sequences of UTF-16
 * code units in JavaScript; here each `char` stands for one code unit.
 */
module JsString {

  /** The decimal digit of `d`. */
  function DigitChar(d: nat): (c: char)
    requires d < 10
    ensures '0' <= c <= '9'
  {
    (48 + d) as char
  }

  /** The WhiteSpace and LineTerminator characters that `String.prototype.trim` removes. */
  predicate IsWhitespace(c: char) {
    || c == '\t' || c == '\n' || c == '\U{000B}' || c == '\U{000C}' || c == '\r' || c == ' '
    || c == '\U{00A0}' || c == '\U{1680}' || ('\U{2000}' <= c <= '\U{200A}')
    || c == '\U{2028}' || c == '\U{2029}' || c == '\U{202F}' || c == '\U{205F}'
    || c == '\U{3000}' || c == '\U{FEFF}'
  }

  /** Every character of `s` is whitespace (in particular, the empty string). */
  predicate Blank(s: string) {
    forall i :: 0 <= i < |s| ==> IsWhitespace(s[i])
  }

  /** `s` without its leading whitespace. */
  function TrimStart(s: string): (r: string)
    ensures |r| <= |s| && r == s[|s| - |r|..]
    ensures Blank(s[..|s| - |r|])
    ensures |r| > 0 ==> !IsWhitespace(r[0])
  {
    if |s| > 0 && IsWhitespace(s[0]) then
      var r := TrimStart(s[1..]);
      var removed := s[1..][..|s[1..]| - |r|];
      assert s[..|s| - |r|] == [s[0]] + removed;
      assert s[1..][|s[1..]| - |r|..] == s[|s| - |r|..];
      BlankConcat([s[0]], removed);
      r
    else s
  }

  /** `s` without its trailing whitespace. */
  function TrimEnd(s: string): (r: string)
    ensures |r| <= |s| && r == s[..|r|]
    ensures Blank(s[|r|..])
    ensures |r| > 0 ==> !IsWhitespace(r[|r| - 1])
  {
    if |s| > 0 && IsWhitespace(s[|s| - 1]) then
      var r := TrimEnd(s[..|s| - 1]);
      var removed := s[..|s| - 1][|r|..];
      assert s[|r|..] == removed + [s[|s| - 1]];
      assert s[..|s| - 1][..|r|] == s[..|r|];
      BlankConcat(removed, [s[|s| - 1]]);
      r
    else s
  }

  /** `s.trim()`: the empty string exactly when `s` is blank. */
  function Trim(s: string): (r: string)
    ensures |r| <= |s|
    ensures r == [] <==> Blank(s)
    ensures |r| > 0 ==> !IsWhitespace(r[0]) && !IsWhitespace(r[|r| - 1])
  {
    TrimEmptyIffBlank(s);
    TrimEnd(TrimStart(s))
  }

  lemma BlankConcat(x: string, y: string)
    requires Blank(x) && Blank(y)
    ensures Blank(x + y)
  {
    forall k | 0 <= k < |x + y| ensures IsWhitespace((x + y)[k]) {
      if k < |x| { assert (x + y)[k] == x[k]; } else { assert (x + y)[k] == y[k - |x|]; }
    }
  }

  lemma TrimEmptyIffBlank(s: string)
    ensures TrimEnd(TrimStart(s)) == [] <==> Blank(s)
  {
    var a := TrimStart(s);
    var r := TrimEnd(a);
    var i := |s| - |a|;
    assert a == s[i..];
    if r == [] {
      assert Blank(a[|r|..]);
      assert a[|r|..] == a;
      assert Blank(s[..i]);
      assert s == s[..i] + a;
      BlankConcat(s[..i], a);
    } else {
      assert |a| > 0;
      assert !IsWhitespace(a[0]);
      assert a[0] == s[i];
      assert !Blank(s);
    }
  }

  /** The position `slice` uses for an `end` argument: counted from the back when negative, clamped to the string. */
  function SliceIndex(end: int, len: nat): (k: nat)
    ensures k <= len
    ensures 0 <= end ==> k == if end < len then end else len
    ensures end < 0 ==> k == if len + end < 0 then 0 else len + end
  {
    if end < 0 then (if len + end < 0 then 0 else len + end)
    else if end > len then len else end
  }

  /** `s.slice(0, end)`: a prefix of `s`. */
  function SlicePrefix(s: string, end: int): (r: string)
    ensures r <= s
    ensures |r| == SliceIndex(end, |s|)
  {
    s[..SliceIndex(end, |s|)]
  }

  /** `s.split(sep)` for a one-character separator: never empty, no part holds `sep`. */
  function Split(s: string, sep: char): (parts: seq<string>)
    ensures |parts| >= 1
    ensures forall i :: 0 <= i < |parts| ==> sep !in parts[i]
    decreases |s|
  {
    if |s| == 0 then [""]
    else
      var rest := Split(s[1..], sep);
      if s[0] == sep then [""] + rest
      else [[s[0]] + rest[0]] + rest[1..]
  }

  /** `parts.join(sep)`. */
  function Join(parts: seq<string>, sep: char): string
    requires |parts| >= 1
    decreases |parts|
  {
    if |parts| == 1 then parts[0] else parts[0] + [sep] + Join(parts[1..], sep)
  }

  /** Joining the parts of a split gives back the string. */
  lemma {:induction false} JoinSplit(s: string, sep: char)
    ensures Join(Split(s, sep), sep) == s
    decreases |s|
  {
    if |s| > 0 {
      var rest := Split(s[1..], sep);
      JoinSplit(s[1..], sep);
      if s[0] == sep {
        assert Split(s, sep)[1..] == rest;
      } else {
        var parts := Split(s, sep);
        if |rest| == 1 {
          assert parts == [[s[0]] + rest[0]];
        } else {
          assert parts[1..] == rest[1..];
          assert Join(rest, sep) == rest[0] + [sep] + Join(rest[1..], sep);
        }
      }
    }
  }

  /** Splitting a string that holds no separator gives the string itself. */
  lemma {:induction false} SplitNoSeparator(s: string, sep: char)
    requires sep !in s
    ensures Split(s, sep) == [s]
    decreases |s|
  {
    if |s| > 0 {
      assert sep !in s[1..] by {
        forall i | 0 <= i < |s[1..]| ensures s[1..][i] != sep { assert s[1..][i] == s[i + 1]; }
      }
      SplitNoSeparator(s[1..], sep);
      assert [s[0]] + s[1..] == s;
    }
  }

  /** Splitting `p + sep + rest`, where `p` holds no separator, yields `p` first. */
  lemma {:induction false} SplitAfterPart(p: string, sep: char, rest: string)
    requires sep !in p
    ensures Split(p + [sep] + rest, sep) == [p] + Split(rest, sep)
    decreases |p|
  {
    var s := p + [sep] + rest;
    if |p| == 0 {
      assert s[0] == sep && s[1..] == rest;
    } else {
      assert s[0] == p[0];
      assert s[1..] == p[1..] + [sep] + rest;
      assert sep !in p[1..] by {
        forall i | 0 <= i < |p[1..]| ensures p[1..][i] != sep { assert p[1..][i] == p[i + 1]; }
      }
      SplitAfterPart(p[1..], sep, rest);
      assert [p[0]] + p[1..] == p;
    }
  }

  /** Splitting the join of separator-free parts gives back the parts. */
  lemma {:induction false} SplitJoin(parts: seq<string>, sep: char)
    requires |parts| >= 1
    requires forall i :: 0 <= i < |parts| ==> sep !in parts[i]
    ensures Split(Join(parts, sep), sep) == parts
    decreases |parts|
  {
    if |parts| == 1 {
      SplitNoSeparator(parts[0], sep);
    } else {
      SplitJoin(parts[1..], sep);
      SplitAfterPart(parts[0], sep, Join(parts[1..], sep));
      assert [parts[0]] + parts[1..] == parts;
    }
  }
}

=== FILE: survey_hook.dfy ===
/**
 * The order survey's state logic: the current step and its navigation, the
 * answers collected per step and their partial updates, per-step validation,
 * progress, and what is written to and read back from local storage.
 *
 * Only the pure reducers are modelled; the React state cells become one
 * immutable `Survey` record, and storage I/O is reduced to the value written
 * and the value read back.
 */
module SurveyHook {
  import opened Wrappers
  import opened SurveyTypes
  import JsString

  /** A browser `File` chosen by the user; only its identity matters here. */
  datatype Upload = Upload(name: string, size: nat)

  datatype Step1Data = Step1Data(relationship: Option<Relationship>, name: string, photo: Option<Upload>)
  datatype Step2Data = Step2Data(songFile: Option<Upload>)
  datatype Step3Data = Step3Data(backgroundId: string)
  datatype Step4Data = Step4Data(cardMessage: string)
  datatype Step5Data = Step5Data(confirmed: bool)

  datatype SurveyData = SurveyData(
    step1: Step1Data, step2: Step2Data, step3: Step3Data, step4: Step4Data, step5: Step5Data)

  /**
   * A `Partial<StepKData>`: a field is `None` when the partial object does not
   * mention it, `Some(v)` when it sets it to `v`.
   */
  datatype Step1Patch = Step1Patch(
    relationship: Option<Option<Relationship>>, name: Option<string>, photo: Option<Option<Upload>>)
  datatype Step2Patch = Step2Patch(songFile: Option<Option<Upload>>)
  datatype Step3Patch = Step3Patch(backgroundId: Option<string>)
  datatype Step4Patch = Step4Patch(cardMessage: Option<string>)
  datatype Step5Patch = Step5Patch(confirmed: Option<bool>)

  /** A parsed stored survey: for each step, the fields the stored object has. */
  datatype StoredSurvey = StoredSurvey(
    step1: Step1Patch, step2: Step2Patch, step3: Step3Patch, step4: Step4Patch, step5: Step5Patch)

  /** Validation messages of one step, by field name. */
  type FieldErrors = map<string, string>

  /** The hook's state: the 1-based current step, the answers, and validation errors by step number. */
  datatype Survey = Survey(currentStep: int, data: SurveyData, errors: map<int, FieldErrors>)

  // ---------------------------------------------------------------------------
  // Answers

  function EmptySurveyData(): SurveyData {
    SurveyData(
      Step1Data(None, "", None), Step2Data(None), Step3Data(""), Step4Data(""), Step5Data(false))
  }

  /** The field as the patch sets it, or as it was. */
  function Pick<T>(patch: Option<T>, current: T): T {
    patch.GetOr(current)
  }

  function MergeStep1(d: Step1Data, p: Step1Patch): Step1Data {
    Step1Data(Pick(p.relationship, d.relationship), Pick(p.name, d.name), Pick(p.photo, d.photo))
  }

  function MergeStep2(d: Step2Data, p: Step2Patch): Step2Data {
    Step2Data(Pick(p.songFile, d.songFile))
  }

  function MergeStep3(d: Step3Data, p: Step3Patch): Step3Data {
    Step3Data(Pick(p.backgroundId, d.backgroundId))
  }

  function MergeStep4(d: Step4Data, p: Step4Patch): Step4Data {
    Step4Data(Pick(p.cardMessage, d.cardMessage))
  }

  function MergeStep5(d: Step5Data, p: Step5Patch): Step5Data {
    Step5Data(Pick(p.confirmed, d.confirmed))
  }

  /** The errors with those of step `k` cleared and those of every other step kept. */
  function ClearErrors(errors: map<int, FieldErrors>, k: int): (r: map<int, FieldErrors>)
    ensures k !in r
    ensures forall j :: j != k ==> (j in r <==> j in errors)
    ensures forall j :: j != k && j in r ==> r[j] == errors[j]
  {
    errors - {k}
  }

  /** `updateStep1`: overwrites the fields the patch mentions, and nothing else. */
  function UpdateStep1(s: Survey, p: Step1Patch): (r: Survey)
    ensures r.currentStep == s.currentStep
    ensures r.data.(step1 := s.data.step1) == s.data
    ensures r.data.step1.relationship == (if p.relationship.Some? then p.relationship.value else s.data.step1.relationship)
    ensures r.data.step1.name == (if p.name.Some? then p.name.value else s.data.step1.name)
    ensures r.data.step1.photo == (if p.photo.Some? then p.photo.value else s.data.step1.photo)
    ensures r.errors == ClearErrors(s.errors, 1)
  {
    Survey(s.currentStep, s.data.(step1 := MergeStep1(s.data.step1, p)), ClearErrors(s.errors, 1))
  }

  function UpdateStep2(s: Survey, p: Step2Patch): (r: Survey)
    ensures r.currentStep == s.currentStep
    ensures r.data.(step2 := s.data.step2) == s.data
    ensures r.data.step2.songFile == (if p.songFile.Some? then p.songFile.value else s.data.step2.songFile)
    ensures r.errors == ClearErrors(s.errors, 2)
  {
    Survey(s.currentStep, s.data.(step2 := MergeStep2(s.data.step2, p)), ClearErrors(s.errors, 2))
  }

  function UpdateStep3(s: Survey, p: Step3Patch): (r: Survey)
    ensures r.currentStep == s.currentStep
    ensures r.data.(step3 := s.data.step3) == s.data
    ensures r.data.step3.backgroundId == (if p.backgroundId.Some? then p.backgroundId.value else s.data.step3.backgroundId)
    ensures r.errors == ClearErrors(s.errors, 3)
  {
    Survey(s.currentStep, s.data.(step3 := MergeStep3(s.data.step3, p)), ClearErrors(s.errors, 3))
  }

  function UpdateStep4(s: Survey, p: Step4Patch): (r: Survey)
    ensures r.currentStep == s.currentStep
    ensures r.data.(step4 := s.data.step4) == s.data
    ensures r.data.step4.cardMessage == (if p.cardMessage.Some? then p.cardMessage.value else s.data.step4.cardMessage)
    ensures r.errors == ClearErrors(s.errors, 4)
  {
    Survey(s.currentStep, s.data.(step4 := MergeStep4(s.data.step4, p)), ClearErrors(s.errors, 4))
  }

  function UpdateStep5(s: Survey, p: Step5Patch): (r: Survey)
    ensures r.currentStep == s.currentStep
    ensures r.data.(step5 := s.data.step5) == s.data
    ensures r.data.step5.confirmed == (if p.confirmed.Some? then p.confirmed.value else s.data.step5.confirmed)
    ensures r.errors == ClearErrors(s.errors, 5)
  {
    Survey(s.currentStep, s.data.(step5 := MergeStep5(s.data.step5, p)), ClearErrors(s.errors, 5))
  }

  /** One of the five `updateStepK` calls with its partial object. */
  datatype StepUpdate =
    | Update1(p1: Step1Patch)
    | Update2(p2: Step2Patch)
    | Update3(p3: Step3Patch)
    | Update4(p4: Step4Patch)
    | Update5(p5: Step5Patch)

  /** The step an update is addressed to. */
  function UpdatedStep(u: StepUpdate): int {
    match u
    case Update1(_) => 1
    case Update2(_) => 2
    case Update3(_) => 3
    case Update4(_) => 4
    case Update5(_) => 5
  }

  function ApplyUpdate(s: Survey, u: StepUpdate): Survey {
    match u
    case Update1(p) => UpdateStep1(s, p)
    case Update2(p) => UpdateStep2(s, p)
    case Update3(p) => UpdateStep3(s, p)
    case Update4(p) => UpdateStep4(s, p)
    case Update5(p) => UpdateStep5(s, p)
  }

  /** Applying the same partial update twice is the same as applying it once. */
  lemma UpdateStepIdempotent(s: Survey, u: StepUpdate)
    ensures ApplyUpdate(ApplyUpdate(s, u), u) == ApplyUpdate(s, u)
  {
    var k := UpdatedStep(u);
    assert ClearErrors(ClearErrors(s.errors, k), k) == ClearErrors(s.errors, k);
  }

  /** Updates of two different steps do not interfere: their order does not matter. */
  lemma UpdatesOfDifferentStepsCommute(s: Survey, u: StepUpdate, v: StepUpdate)
    requires UpdatedStep(u) != UpdatedStep(v)
    ensures ApplyUpdate(ApplyUpdate(s, u), v) == ApplyUpdate(ApplyUpdate(s, v), u)
  {
    var a, b := UpdatedStep(u), UpdatedStep(v);
    assert ClearErrors(ClearErrors(s.errors, a), b) == ClearErrors(ClearErrors(s.errors, b), a);
  }

  // ---------------------------------------------------------------------------
  // Navigation

  /** The next step, never beyond the last. */
  function NextStep(step: int): (r: int)
    ensures r <= TotalSteps
    ensures step < TotalSteps ==> r == step + 1
    ensures step >= TotalSteps ==> r == TotalSteps
  {
    if step + 1 < TotalSteps then step + 1 else TotalSteps
  }

  /** The previous step, never before the first. */
  function PrevStep(step: int): (r: int)
    ensures r >= 1
    ensures step > 1 ==> r == step - 1
    ensures step <= 1 ==> r == 1
  {
    if step - 1 > 1 then step - 1 else 1
  }

  /** Jumping to step `n`: `n` itself when it is a step, else the nearest end. */
  function GoToStep(n: int): (r: int)
    ensures 1 <= r <= TotalSteps
    ensures 1 <= n <= TotalSteps ==> r == n
    ensures n < 1 ==> r == 1
    ensures n > TotalSteps ==> r == TotalSteps
  {
    if n < TotalSteps then (if n > 1 then n else 1) else TotalSteps
  }

  predicate IsFirstStep(step: int) { step == 1 }

  predicate IsLastStep(step: int) { step == TotalSteps }

  /** Navigation keeps the current step between 1 and `TotalSteps`. */
  lemma NavigationStaysInRange(step: int, n: int)
    requires 1 <= step <= TotalSteps
    ensures 1 <= NextStep(step) <= TotalSteps
    ensures 1 <= PrevStep(step) <= TotalSteps
    ensures 1 <= GoToStep(n) <= TotalSteps
  {
  }

  lemma GoToStepIdempotent(n: int)
    ensures GoToStep(GoToStep(n)) == GoToStep(n)
  {
  }

  /** Going forward then back (or back then forward) returns to the same step, except at the ends. */
  lemma NextPrevInverse(step: int)
    requires 1 <= step <= TotalSteps
    ensures step < TotalSteps ==> PrevStep(NextStep(step)) == step
    ensures step > 1 ==> NextStep(PrevStep(step)) == step
  {
  }

  /** The first step is the one `PrevStep` cannot leave; the last the one `NextStep` cannot leave. */
  lemma FirstAndLastAreFixedPoints(step: int)
    requires 1 <= step <= TotalSteps
    ensures IsFirstStep(step) <==> PrevStep(step) == step
    ensures IsLastStep(step) <==> NextStep(step) == step
  {
  }

  /** `Math.round` of JavaScript: the nearest integer, halves rounded up. */
  function Round(x: real): int {
    (x + 0.5).Floor
  }

  /** The progress bar's percentage: step 1 is 20%, step 5 is 100%. */
  function Progress(step: int): (r: int)
    ensures r == 20 * step
  {
    Round(step as real / TotalSteps as real * 100.0)
  }

  lemma ProgressMonotone(a: int, b: int)
    requires a <= b
    ensures Progress(a) <= Progress(b)
  {
  }

  lemma ProgressOfLastStepIsComplete()
    ensures Progress(TotalSteps) == 100
    ensures forall step :: 1 <= step <= TotalSteps ==> 20 <= Progress(step) <= 100
  {
  }

  // ---------------------------------------------------------------------------
  // Validation

  /** `!!s.trim()`: the text holds a non-whitespace character. */
  predicate Filled(s: string) {
    JsString.Trim(s) != ""
  }

  /** The result of a `validateStepN` call: the verdict and the messages it records. */
  datatype Validation = Validation(valid: bool, errors: FieldErrors)

  /** `if (failed) newErrors[field] = message`: the message is recorded only when the check failed. */
  function Record(errors: FieldErrors, failed: bool, field: string, message: string): (r: FieldErrors)
    ensures r.Keys == errors.Keys + (if failed then {field} else {})
    ensures failed ==> r[field] == message
    ensures forall k :: k in errors && k != field ==> r[k] == errors[k]
    ensures !failed ==> r == errors
  {
    if failed then errors[field := message] else errors
  }

  lemma NoErrorsIffNoKeys(m: FieldErrors)
    ensures m == map[] <==> m.Keys == {}
  {
    if m.Keys == {} {
      assert forall k :: k !in m;
    }
  }

  function ValidateStep1(d: Step1Data): (r: Validation)
    ensures r.valid <==> r.errors == map[]
    ensures "relationship" in r.errors <==> d.relationship.None?
    ensures "name" in r.errors <==> !Filled(d.name)
    ensures "photo" in r.errors <==> d.photo.None?
    ensures "relationship" in r.errors ==> r.errors["relationship"] == "Please select who this is for"
    ensures "name" in r.errors ==> r.errors["name"] == "Please enter her name"
    ensures "photo" in r.errors ==> r.errors["photo"] == "Please upload a photo"
    ensures r.errors.Keys <= {"relationship", "name", "photo"}
  {
    var e1 := Record(map[], d.relationship.None?, "relationship", "Please select who this is for");
    var e2 := Record(e1, !Filled(d.name), "name", "Please enter her name");
    var errors := Record(e2, d.photo.None?, "photo", "Please upload a photo");
    NoErrorsIffNoKeys(errors);
    Validation(d.relationship.Some? && Filled(d.name) && d.photo.Some?, errors)
  }

  function ValidateStep2(d: Step2Data): (r: Validation)
    ensures r.valid <==> r.errors == map[]
    ensures r.errors.Keys <= {"songFile"}
    ensures "songFile" in r.errors <==> d.songFile.None?
    ensures "songFile" in r.errors ==> r.errors["songFile"] == "Please upload a song"
  {
    NoErrorsIffNoKeys(Record(map[], d.songFile.None?, "songFile", "Please upload a song"));
    Validation(d.songFile.Some?, Record(map[], d.songFile.None?, "songFile", "Please upload a song"))
  }

  function ValidateStep3(d: Step3Data): (r: Validation)
    ensures r.valid <==> r.errors == map[]
    ensures r.errors.Keys <= {"backgroundId"}
    ensures "backgroundId" in r.errors <==> d.backgroundId == ""
    ensures "backgroundId" in r.errors ==> r.errors["backgroundId"] == "Please select a background"
  {
    NoErrorsIffNoKeys(Record(map[], d.backgroundId == "", "backgroundId", "Please select a background"));
    Validation(d.backgroundId != "", Record(map[], d.backgroundId == "", "backgroundId", "Please select a background"))
  }

  function ValidateStep4(d: Step4Data): (r: Validation)
    ensures r.valid <==> r.errors == map[]
    ensures r.errors.Keys <= {"cardMessage"}
    ensures "cardMessage" in r.errors <==> !Filled(d.cardMessage)
    ensures "cardMessage" in r.errors ==> r.errors["cardMessage"] == "Please write a message"
  {
    NoErrorsIffNoKeys(Record(map[], !Filled(d.cardMessage), "cardMessage", "Please write a message"));
    Validation(Filled(d.cardMessage), Record(map[], !Filled(d.cardMessage), "cardMessage", "Please write a message"))
  }

  /**
   * `validateCurrentStep`: the verdict for the current step, recording its
   * messages. Step 5 always passes and records nothing; so does a step
   * number outside the table.
   */
  function ValidateCurrentStep(s: Survey): (r: (bool, Survey))
    ensures r.1.currentStep == s.currentStep && r.1.data == s.data
    ensures !(1 <= s.currentStep <= 4) ==> r.0 && r.1 == s
    ensures 1 <= s.currentStep <= 4 ==>
      && s.currentStep in r.1.errors
      && (r.0 <==> r.1.errors[s.currentStep] == map[])
      && forall j :: j != s.currentStep && j in s.errors ==> j in r.1.errors && r.1.errors[j] == s.errors[j]
    // Only the current step's entry is added; no other step gains one.
    ensures 1 <= s.currentStep <= 4 ==> r.1.errors.Keys == s.errors.Keys + {s.currentStep}
    // The recorded entry is exactly what the step's own validation reports.
    ensures s.currentStep == 1 ==>
      r.0 == ValidateStep1(s.data.step1).valid && r.1.errors[1] == ValidateStep1(s.data.step1).errors
    ensures s.currentStep == 2 ==>
      r.0 == ValidateStep2(s.data.step2).valid && r.1.errors[2] == ValidateStep2(s.data.step2).errors
    ensures s.currentStep == 3 ==>
      r.0 == ValidateStep3(s.data.step3).valid && r.1.errors[3] == ValidateStep3(s.data.step3).errors
    ensures s.currentStep == 4 ==>
      r.0 == ValidateStep4(s.data.step4).valid && r.1.errors[4] == ValidateStep4(s.data.step4).errors
  {
    var v :=
      match s.currentStep
      case 1 => ValidateStep1(s.data.step1)
      case 2 => ValidateStep2(s.data.step2)
      case 3 => ValidateStep3(s.data.step3)
      case 4 => ValidateStep4(s.data.step4)
      case _ => Validation(true, map[]);
    if 1 <= s.currentStep <= 4 then (v.valid, RecordStepErrors(s, s.currentStep, v.errors)) else (true, s)
  }

  /** `setErrors(prev => ({ ...prev, stepK: newErrors }))`: step k's entry becomes `errors`, the rest stay. */
  function RecordStepErrors(s: Survey, k: int, errors: FieldErrors): (r: Survey)
    ensures r.currentStep == s.currentStep && r.data == s.data
    ensures r.errors.Keys == s.errors.Keys + {k}
    ensures r.errors[k] == errors
    ensures forall j :: j != k && j in s.errors ==> r.errors[j] == s.errors[j]
  {
    s.(errors := s.errors[k := errors])
  }

  /** `isStepValid`: whether the current step's answers are complete; false outside the table. */
  function IsStepValid(step: int, d: SurveyData): bool {
    match step
    case 1 => d.step1.relationship.Some? && Filled(d.step1.name) && d.step1.photo.Some?
    case 2 => d.step2.songFile.Some?
    case 3 => d.step3.backgroundId != ""
    case 4 => Filled(d.step4.cardMessage)
    case 5 => true
    case _ => false
  }

  /** On every step of the table, validating gives the same verdict as `isStepValid`. */
  lemma ValidateAgreesWithIsStepValid(s: Survey)
    requires 1 <= s.currentStep <= TotalSteps
    ensures ValidateCurrentStep(s).0 == IsStepValid(s.currentStep, s.data)
  {
  }

  /** What each step's completeness means in terms of the answers. */
  lemma StepValidityMeaning(d: SurveyData)
    ensures IsStepValid(1, d) <==>
      d.step1.relationship.Some? && !JsString.Blank(d.step1.name) && d.step1.photo.Some?
    ensures IsStepValid(4, d) <==> !JsString.Blank(d.step4.cardMessage)
    ensures IsStepValid(5, d)
  {
  }

  /** A fresh survey has no complete step but the review. */
  lemma EmptySurveyIncomplete()
    ensures forall k :: 1 <= k < TotalSteps ==> !IsStepValid(k, EmptySurveyData())
  {
    assert JsString.Blank("");
  }

  // ---------------------------------------------------------------------------
  // Persistence

  /** The object written to storage: every field except the two files, which cannot be stored. */
  function SaveSurveyData(d: SurveyData): (r: StoredSurvey)
    ensures r.step1.photo.None? && r.step2.songFile.None?
    ensures r.step1.relationship == Some(d.step1.relationship) && r.step1.name == Some(d.step1.name)
    ensures r.step3.backgroundId == Some(d.step3.backgroundId)
    ensures r.step4.cardMessage == Some(d.step4.cardMessage)
    ensures r.step5.confirmed == Some(d.step5.confirmed)
  {
    StoredSurvey(
      Step1Patch(Some(d.step1.relationship), Some(d.step1.name), None),
      Step2Patch(None),
      Step3Patch(Some(d.step3.backgroundId)),
      Step4Patch(Some(d.step4.cardMessage)),
      Step5Patch(Some(d.step5.confirmed)))
  }

  /**
   * The answers restored on mount: the stored fields over the defaults, the
   * two files always reset. `None` stands for nothing stored, an empty entry
   * or an entry that does not parse.
   */
  function LoadSurveyData(stored: Option<StoredSurvey>): (r: SurveyData)
    ensures r.step1.photo.None? && r.step2.songFile.None?
    ensures stored.None? ==> r == EmptySurveyData()
    ensures stored.Some? ==>
      && r.step1.name == stored.value.step1.name.GetOr("")
      && r.step1.relationship == stored.value.step1.relationship.GetOr(None)
      && r.step3.backgroundId == stored.value.step3.backgroundId.GetOr("")
      && r.step4.cardMessage == stored.value.step4.cardMessage.GetOr("")
      && r.step5.confirmed == stored.value.step5.confirmed.GetOr(false)
  {
    var empty := EmptySurveyData();
    match stored
    case None => empty
    case Some(p) =>
      SurveyData(
        MergeStep1(empty.step1, p.step1).(photo := None),
        MergeStep2(empty.step2, p.step2).(songFile := None),
        MergeStep3(empty.step3, p.step3),
        MergeStep4(empty.step4, p.step4),
        MergeStep5(empty.step5, p.step5))
  }

  /** The answers without the two files. */
  function WithoutFiles(d: SurveyData): SurveyData {
    d.(step1 := d.step1.(photo := None), step2 := d.step2.(songFile := None))
  }

  /** Saving and loading back restores every answer except the files. */
  lemma SaveLoadRoundTrip(d: SurveyData)
    ensures LoadSurveyData(Some(SaveSurveyData(d))) == WithoutFiles(d)
  {
  }

  /** Loaded answers survive another save and load unchanged. */
  lemma LoadSaveStable(stored: Option<StoredSurvey>)
    ensures LoadSurveyData(Some(SaveSurveyData(LoadSurveyData(stored)))) == LoadSurveyData(stored)
  {
    SaveLoadRoundTrip(LoadSurveyData(stored));
  }
}

=== FILE: survey_types.dfy ===
/**
 * The fixed tables of the order survey: the relationships a gift can be for,
 * their display labels and display order, and the five survey steps.
 */
module SurveyTypes {
  import opened Wrappers
  import JsString

  datatype Relationship =
    | Husband | Wife | Children | Father | Mother | Sibling | Friend | Myself | Other

  /** The string a relationship is stored and sent as. */
  function RelationshipKey(r: Relationship): string {
    match r
    case Husband => "husband"
    case Wife => "wife"
    case Children => "children"
    case Father => "father"
    case Mother => "mother"
    case Sibling => "sibling"
    case Friend => "friend"
    case Myself => "myself"
    case Other => "other"
  }

  /** The ASCII upper-case form of a lower-case letter; other characters are unchanged. */
  function UpperAscii(c: char): char {
    if 'a' <= c <= 'z' then (c as int - 32) as char else c
  }

  /** The display label of a relationship: its key with the first letter capitalised. */
  function RelationshipLabel(r: Relationship): (text: string)
    ensures |text| == |RelationshipKey(r)| > 0
    ensures text[0] == UpperAscii(RelationshipKey(r)[0])
    ensures text[1..] == RelationshipKey(r)[1..]
  {
    match r
    case Husband => "Husband"
    case Wife => "Wife"
    case Children => "Children"
    case Father => "Father"
    case Mother => "Mother"
    case Sibling => "Sibling"
    case Friend => "Friend"
    case Myself => "Myself"
    case Other => "Other"
  }

  /** The relationship a stored key names, if any. */
  function ParseRelationship(s: string): (r: Option<Relationship>)
    ensures r.Some? ==> RelationshipKey(r.value) == s
    ensures forall x :: RelationshipKey(x) == s ==> r == Some(x)
  {
    if s == "husband" then Some(Husband)
    else if s == "wife" then Some(Wife)
    else if s == "children" then Some(Children)
    else if s == "father" then Some(Father)
    else if s == "mother" then Some(Mother)
    else if s == "sibling" then Some(Sibling)
    else if s == "friend" then Some(Friend)
    else if s == "myself" then Some(Myself)
    else if s == "other" then Some(Other)
    else None
  }

  /** The order in which the relationship choices are shown. */
  const RelationshipOrder: seq<Relationship> :=
    [Husband, Wife, Children, Father, Mother, Sibling, Friend, Myself, Other]

  /** The display order lists every relationship exactly once. */
  lemma RelationshipOrderIsPermutation()
    ensures |RelationshipOrder| == 9
    ensures forall r: Relationship :: r in RelationshipOrder
    ensures forall i, j :: 0 <= i < j < |RelationshipOrder| ==> RelationshipOrder[i] != RelationshipOrder[j]
  {
    forall r: Relationship ensures r in RelationshipOrder {
      match r
      case Husband => assert RelationshipOrder[0] == r;
      case Wife => assert RelationshipOrder[1] == r;
      case Children => assert RelationshipOrder[2] == r;
      case Father => assert RelationshipOrder[3] == r;
      case Mother => assert RelationshipOrder[4] == r;
      case Sibling => assert RelationshipOrder[5] == r;
      case Friend => assert RelationshipOrder[6] == r;
      case Myself => assert RelationshipOrder[7] == r;
      case Other => assert RelationshipOrder[8] == r;
    }
  }

  /** Distinct relationships have distinct keys and distinct labels. */
  lemma KeysAndLabelsDistinct(a: Relationship, b: Relationship)
    requires a != b
    ensures RelationshipKey(a) != RelationshipKey(b)
    ensures RelationshipLabel(a) != RelationshipLabel(b)
  {
    assert ParseRelationship(RelationshipKey(a)) == Some(a);
  }

  /** One entry of the step table: its number, title and the survey-data field it fills. */
  datatype SurveyStep = SurveyStep(id: int, name: string, key: string)

  const SurveySteps: seq<SurveyStep> := [
    SurveyStep(1, "The Date", "step1"),
    SurveyStep(2, "Set the Mood", "step2"),
    SurveyStep(3, "Scene", "step3"),
    SurveyStep(4, "Message", "step4"),
    SurveyStep(5, "Review", "step5")
  ]

  const TotalSteps: int := 5

  /** The step table has `TotalSteps` entries, numbered 1, 2, ... in order, entry k filling `step{k}`. */
  lemma SurveyStepsWellFormed()
    ensures |SurveySteps| == TotalSteps
    ensures forall i :: 0 <= i < |SurveySteps| ==>
      && SurveySteps[i].id == i + 1
      && SurveySteps[i].key == "step" + [JsString.DigitChar(i + 1)]
  {
  }
}

=== FILE: translation.dfy ===
/**
 * The translation lookup `t(key, params)`: a dotted key walks a nested
 * dictionary; a missing segment, or a path ending anywhere but at a string,
 * yields the key itself; with parameters, every `{{name}}` placeholder whose
 * name is a parameter is replaced by its value.
 */
module Translation {
  import opened Wrappers
  import JsString

  /**
   * A parsed translation file. `Other` is any other JSON value (number,
   * boolean, null): it is neither a string nor something a key can walk into.
   * A JSON array is an object too: see `JsonArray`.
   */
  datatype Dict = Str(text: string) | Obj(entries: map<string, Dict>) | Other

  predicate IsDigits(s: string) {
    forall j :: 0 <= j < |s| ==> '0' <= s[j] <= '9'
  }

  /** The value of a string of decimal digits, read left to right: `v := 10 * v + digit`. */
  function NumeralValue(s: string): nat
    requires IsDigits(s)
  {
    if |s| == 0 then 0 else 10 * NumeralValue(s[..|s| - 1]) + (s[|s| - 1] as int - '0' as int)
  }

  /** A numeral as `String` writes a number: digits, and no leading zero unless it is "0". */
  predicate Canonical(s: string) {
    |s| >= 1 && IsDigits(s) && (|s| > 1 ==> s[0] != '0')
  }

  /** The property name of array index `i`: its decimal numeral, as `String(i)` writes it. */
  function IndexKey(i: nat): (k: string)
    ensures Canonical(k) && NumeralValue(k) == i
    ensures i > 0 ==> k[0] != '0'
    ensures i < 10 <==> |k| == 1
    decreases i
  {
    if i < 10 then
      var k := [JsString.DigitChar(i)];
      assert k[..0] == [];
      k
    else
      var head := IndexKey(i / 10);
      var k := head + [JsString.DigitChar(i % 10)];
      assert k[..|k| - 1] == head;
      k
  }

  /** Every canonical numeral is the property name of the index it denotes. */
  lemma {:induction false} IndexKeyOfNumeral(s: string)
    requires Canonical(s)
    ensures IndexKey(NumeralValue(s)) == s
    decreases |s|
  {
    var d := s[|s| - 1] as int - '0' as int;
    if |s| == 1 {
      assert s[..0] == [];
      assert IndexKey(d)[0] == s[0];
    } else {
      var p := s[..|s| - 1];
      assert p[0] == s[0];
      NonZeroLeadingPositive(p);
      IndexKeyOfNumeral(p);
      var v := NumeralValue(s);
      assert v == 10 * NumeralValue(p) + d;
      assert v / 10 == NumeralValue(p) && v % 10 == d;
      assert IndexKey(v) == p + [JsString.DigitChar(d)];
      assert s == p + [s[|s| - 1]];
    }
  }

  /** A numeral that does not start with `0` denotes a positive number. */
  lemma {:induction false} NonZeroLeadingPositive(s: string)
    requires |s| >= 1 && IsDigits(s) && s[0] != '0'
    ensures NumeralValue(s) > 0
    decreases |s|
  {
    if |s| > 1 {
      var p := s[..|s| - 1];
      assert p[0] == s[0];
      NonZeroLeadingPositive(p);
    }
  }

  /** Distinct indices have distinct property names. */
  lemma {:induction false} IndexKeyInjective(i: nat, j: nat)
    requires IndexKey(i) == IndexKey(j)
    ensures i == j
    decreases i
  {
    if i >= 10 && j >= 10 {
      var ki, kj := IndexKey(i), IndexKey(j);
      assert ki[|ki| - 1] == JsString.DigitChar(i % 10) && kj[|kj| - 1] == JsString.DigitChar(j % 10);
      assert ki[..|ki| - 1] == IndexKey(i / 10) && kj[..|kj| - 1] == IndexKey(j / 10);
      IndexKeyInjective(i / 10, j / 10);
    } else if i < 10 && j < 10 {
      assert IndexKey(i)[0] == JsString.DigitChar(i) && IndexKey(j)[0] == JsString.DigitChar(j);
    }
  }

  lemma IndexKeysDistinct()
    ensures forall i: nat, j: nat :: IndexKey(i) == IndexKey(j) ==> i == j
  {
    forall i: nat, j: nat | IndexKey(i) == IndexKey(j) ensures i == j {
      IndexKeyInjective(i, j);
    }
  }

  /** No index name is "length": index names are made of digits. */
  lemma IndexKeyIsNotLength(i: nat)
    ensures IndexKey(i) != "length"
  {
    assert '0' <= IndexKey(i)[0] <= '9';
  }

  /** The index entries of an array: element `i` under the name `IndexKey(i)`. */
  function IndexedEntries(items: seq<Dict>): (m: map<string, Dict>)
    ensures forall i :: 0 <= i < |items| ==> IndexKey(i) in m && m[IndexKey(i)] == items[i]
    ensures "length" !in m
  {
    IndexKeysDistinct();
    var m := map i | 0 <= i < |items| :: IndexKey(i) := items[i];
    forall i | 0 <= i < |items| ensures IndexKey(i) in m && m[IndexKey(i)] == items[i] {
      assert IndexKey(i) in m.Keys;
    }
    assert "length" !in m by {
      forall i | 0 <= i < |items| ensures IndexKey(i) != "length" { IndexKeyIsNotLength(i); }
    }
    m
  }

  /**
   * A JSON array as the walk sees it: `k in array` holds for the index names
   * "0".."n-1" and for "length", whose value is a number. Inherited methods
   * are functions, not strings, so they end a lookup like a missing key.
   */
  function JsonArray(items: seq<Dict>): (r: Dict)
    ensures r.Obj? && "length" in r.entries && r.entries["length"] == Other
    ensures forall i :: 0 <= i < |items| ==> IndexKey(i) in r.entries && r.entries[IndexKey(i)] == items[i]
  {
    Obj(IndexedEntries(items)["length" := Other])
  }

  /** The value at the end of `path`, or `None` when some segment is missing. */
  function Walk(d: Dict, path: seq<string>): (r: Option<Dict>)
    ensures |path| == 0 ==> r == Some(d)
    ensures |path| > 0 && !(d.Obj? && path[0] in d.entries) ==> r.None?
    ensures |path| == 1 && d.Obj? && path[0] in d.entries ==> r == Some(d.entries[path[0]])
    decreases |path|
  {
    if |path| == 0 then Some(d)
    else if d.Obj? && path[0] in d.entries then Walk(d.entries[path[0]], path[1..])
    else None
  }

  /** Walking a longer path is walking its first part, then the rest from where that ends. */
  lemma {:induction false} WalkAppend(d: Dict, p: seq<string>, q: seq<string>)
    ensures Walk(d, p + q) == if Walk(d, p).Some? then Walk(Walk(d, p).value, q) else None
    decreases |p|
  {
    if |p| == 0 {
      assert p + q == q;
    } else {
      assert (p + q)[0] == p[0] && (p + q)[1..] == p[1..] + q;
      if d.Obj? && p[0] in d.entries {
        WalkAppend(d.entries[p[0]], p[1..], q);
      }
    }
  }

  /** An index segment walks into the array element; "length" reaches a number. */
  lemma ArrayIndexDescends(items: seq<Dict>, i: nat, rest: seq<string>)
    requires i < |items|
    ensures Walk(JsonArray(items), [IndexKey(i)] + rest) == Walk(items[i], rest)
    ensures Walk(JsonArray(items), ["length"]) == Some(Other)
  {
    WalkAppend(JsonArray(items), [IndexKey(i)], rest);
  }

  /** A path through an array element has no `.` in any segment when its other segments have none. */
  lemma IndexedPathHasNoDots(prefix: seq<string>, i: nat, rest: seq<string>)
    requires forall j :: 0 <= j < |prefix| ==> '.' !in prefix[j]
    requires forall j :: 0 <= j < |rest| ==> '.' !in rest[j]
    ensures forall j :: 0 <= j < |prefix + [IndexKey(i)] + rest| ==> '.' !in (prefix + [IndexKey(i)] + rest)[j]
  {
    var path := prefix + [IndexKey(i)] + rest;
    assert '.' !in IndexKey(i) by {
      forall j | 0 <= j < |IndexKey(i)| ensures IndexKey(i)[j] != '.' { }
    }
    forall j | 0 <= j < |path| ensures '.' !in path[j] {
      if j < |prefix| { assert path[j] == prefix[j]; }
      else if j == |prefix| { assert path[j] == IndexKey(i); }
      else { assert path[j] == rest[j - |prefix| - 1]; }
    }
  }

  /**
   * A dotted key through an array index, such as `items.0.quote`, translates
   * to the string the element holds at the rest of the path.
   */
  lemma ArrayElementTranslates(
    dict: Dict, prefix: seq<string>, items: seq<Dict>, i: nat, rest: seq<string>, text: string)
    requires i < |items|
    requires forall j :: 0 <= j < |prefix| ==> '.' !in prefix[j]
    requires forall j :: 0 <= j < |rest| ==> '.' !in rest[j]
    requires Walk(dict, prefix) == Some(JsonArray(items))
    requires Walk(items[i], rest) == Some(Str(text))
    ensures T(dict, JsString.Join(prefix + [IndexKey(i)] + rest, '.'), None) == text
  {
    var path := prefix + [IndexKey(i)] + rest;
    IndexedPathHasNoDots(prefix, i, rest);
    WalkAppend(dict, prefix, [IndexKey(i)] + rest);
    assert path == prefix + ([IndexKey(i)] + rest);
    ArrayIndexDescends(items, i, rest);
    FoundStringVerbatim(dict, path, text);
  }

  /** `t('testimonials.items.0.quote')` reads the quote of the first testimonial. */
  lemma FirstTestimonialQuote(dict: Dict, items: seq<Dict>, text: string)
    requires |items| > 0
    requires Walk(dict, ["testimonials", "items"]) == Some(JsonArray(items))
    requires Walk(items[0], ["quote"]) == Some(Str(text))
    ensures T(dict, "testimonials.items.0.quote", None) == text
  {
    var prefix, rest := ["testimonials", "items"], ["quote"];
    assert '.' !in prefix[0] && '.' !in prefix[1] && '.' !in rest[0];
    ArrayElementTranslates(dict, prefix, items, 0, rest, text);
    FirstTestimonialKey();
  }

  /** The dotted key of the first testimonial's quote is the join of its segments. */
  lemma FirstTestimonialKey()
    ensures JsString.Join(["testimonials", "items"] + [IndexKey(0)] + ["quote"], '.') == "testimonials.items.0.quote"
  {
    var k := IndexKey(0);
    assert k == "0" by { assert |k| == 1 && NumeralValue(k) == 0; assert k[..0] == []; }
    JoinFour("testimonials", "items", "0", "quote", '.');
    assert ["testimonials", "items"] + [k] + ["quote"] == ["testimonials", "items", "0", "quote"];
  }

  /** Joining four segments puts the separator between each neighbouring pair. */
  lemma JoinFour(a: string, b: string, c: string, d: string, sep: char)
    ensures JsString.Join([a, b, c, d], sep) == a + [sep] + b + [sep] + c + [sep] + d
  {
    assert [c, d][1..] == [d];
    assert JsString.Join([c, d], sep) == c + [sep] + d;
    assert [b, c, d][1..] == [c, d];
    assert JsString.Join([b, c, d], sep) == b + [sep] + c + [sep] + d;
    assert [a, b, c, d][1..] == [b, c, d];
  }


  // ---------------------------------------------------------------------------
  // Placeholders

  /** The characters of the regular-expression class `\w`. */
  predicate IsWordChar(c: char) {
    ('a' <= c <= 'z') || ('A' <= c <= 'Z') || ('0' <= c <= '9') || c == '_'
  }

  predicate IsWord(w: string) {
    |w| > 0 && forall i :: 0 <= i < |w| ==> IsWordChar(w[i])
  }

  /** The length of the longest run of word characters at the start of `s`. */
  function WordLength(s: string): (n: nat)
    ensures n <= |s|
    ensures forall i :: 0 <= i < n ==> IsWordChar(s[i])
    ensures n < |s| ==> !IsWordChar(s[n])
  {
    if |s| > 0 && IsWordChar(s[0]) then 1 + WordLength(s[1..]) else 0
  }

  /** The placeholder text `{{name}}`. */
  function Placeholder(name: string): string {
    "{{" + name + "}}"
  }

  /** The name of the placeholder `{{name}}` that `s` starts with, if it starts with one. */
  function PlaceholderAt(s: string): (r: Option<string>)
    ensures r.Some? ==> IsWord(r.value) && Placeholder(r.value) <= s
  {
    if |s| >= 2 && s[0] == '{' && s[1] == '{' then
      var n := WordLength(s[2..]);
      if n > 0 && n + 4 <= |s| && s[n + 2] == '}' && s[n + 3] == '}' then
        assert s[..n + 4] == Placeholder(s[2..n + 2]);
        Some(s[2..n + 2])
      else None
    else None
  }

  /**
   * `text.replace(/\{\{(\w+)\}\}/g, ...)`: scanning left to right, each
   * placeholder whose name is in `params` becomes the parameter's value; any
   * other placeholder stays as written.
   */
  function Substitute(text: string, params: map<string, string>): string
    decreases |text|
  {
    match PlaceholderAt(text)
    case Some(name) =>
      var len := |name| + 4;
      (if name in params then params[name] else text[..len]) + Substitute(text[len..], params)
    case None =>
      if |text| == 0 then "" else [text[0]] + Substitute(text[1..], params)
  }

  /** The lookup `t(key, params)`. */
  function T(dict: Dict, key: string, params: Option<map<string, string>>): (r: string)
    ensures var found := Walk(dict, JsString.Split(key, '.'));
      && (found.None? || !found.value.Str? ==> r == key)
      && (found.Some? && found.value.Str? && params.None? ==> r == found.value.text)
      && (found.Some? && found.value.Str? && params.Some? ==> r == Substitute(found.value.text, params.value))
  {
    match Walk(dict, JsString.Split(key, '.'))
    case Some(Str(text)) =>
      if params.Some? then Substitute(text, params.value) else text
    case _ => key
  }

  // ---------------------------------------------------------------------------
  // Properties

  /** With an empty dictionary (as before loading, or after a failed load) every key translates to itself. */
  lemma EmptyDictionaryFallsBack(key: string, params: Option<map<string, string>>)
    ensures T(Obj(map[]), key, params) == key
  {
  }

  /** Without parameters, a key that leads to a string yields that string verbatim. */
  lemma FoundStringVerbatim(dict: Dict, path: seq<string>, text: string)
    requires |path| >= 1 && forall i :: 0 <= i < |path| ==> '.' !in path[i]
    requires Walk(dict, path) == Some(Str(text))
    ensures T(dict, JsString.Join(path, '.'), None) == text
  {
    JsString.SplitJoin(path, '.');
  }

  /** A key that leads to a nested object translates to itself. */
  lemma NestedObjectFallsBack(dict: Dict, path: seq<string>, entries: map<string, Dict>, params: Option<map<string, string>>)
    requires |path| >= 1 && forall i :: 0 <= i < |path| ==> '.' !in path[i]
    requires Walk(dict, path) == Some(Obj(entries))
    ensures T(dict, JsString.Join(path, '.'), params) == JsString.Join(path, '.')
  {
    JsString.SplitJoin(path, '.');
  }

  /** A placeholder starting a text is recognised as exactly that placeholder. */
  lemma PlaceholderAtPlaceholder(name: string, rest: string)
    requires IsWord(name)
    ensures PlaceholderAt(Placeholder(name) + rest) == Some(name)
  {
    var s := Placeholder(name) + rest;
    var n := |name|;
    assert s[0] == '{' && s[1] == '{';
    assert s[2..] == name + ("}}" + rest);
    WordLengthOfWord(name, "}}" + rest);
    assert WordLength(s[2..]) == n;
    assert s[n + 2] == '}' && s[n + 3] == '}';
    assert s[2..n + 2] == name;
  }

  lemma {:induction false} WordLengthOfWord(w: string, rest: string)
    requires forall i :: 0 <= i < |w| ==> IsWordChar(w[i])
    requires |rest| > 0 && !IsWordChar(rest[0])
    ensures WordLength(w + rest) == |w|
    decreases |w|
  {
    if |w| > 0 {
      assert (w + rest)[1..] == w[1..] + rest;
      WordLengthOfWord(w[1..], rest);
    } else {
      assert w + rest == rest;
    }
  }

  /** A placeholder is replaced by its parameter when there is one, and kept as written otherwise. */
  lemma SubstitutePlaceholder(name: string, rest: string, params: map<string, string>)
    requires IsWord(name)
    ensures Substitute(Placeholder(name) + rest, params) ==
      (if name in params then params[name] else Placeholder(name)) + Substitute(rest, params)
  {
    var s := Placeholder(name) + rest;
    PlaceholderAtPlaceholder(name, rest);
    assert s[..|name| + 4] == Placeholder(name);
    assert s[|name| + 4..] == rest;
  }

  /**
   * Text in which no placeholder starts is copied unchanged, whatever the
   * parameters: a stray brace, or a `{{...}}` that is not a placeholder,
   * survives substitution as written.
   */
  lemma SubstituteCopiesLiteralText(plain: string, rest: string, params: map<string, string>)
    requires NoPlaceholderStarts(plain, rest)
    ensures Substitute(plain + rest, params) == plain + Substitute(rest, params)
  {
    var s := plain + rest;
    LiteralRunFromPositions(s, |plain|);
    SubstituteCopiesLiteral(s, |plain|, params);
    assert s[..|plain|] == plain && s[|plain|..] == rest;
  }

  /** No placeholder starts at any position of `plain` within `plain + rest`. */
  predicate NoPlaceholderStarts(plain: string, rest: string) {
    forall i :: 0 <= i < |plain| ==> PlaceholderAt((plain + rest)[i..]).None?
  }

  /** No placeholder starts at any of the first `n` positions of `s`, stated position by position. */
  predicate LiteralRun(s: string, n: nat)
    requires n <= |s|
    decreases n
  {
    n == 0 || (PlaceholderAt(s).None? && LiteralRun(s[1..], n - 1))
  }

  lemma {:induction false} LiteralRunFromPositions(s: string, n: nat)
    requires n <= |s|
    requires forall i :: 0 <= i < n ==> PlaceholderAt(s[i..]).None?
    ensures LiteralRun(s, n)
    decreases n
  {
    if n > 0 {
      assert s[0..] == s;
      forall i | 0 <= i < n - 1 ensures PlaceholderAt(s[1..][i..]).None? {
        assert s[1..][i..] == s[i + 1..];
      }
      LiteralRunFromPositions(s[1..], n - 1);
    }
  }

  /** The first `n` characters of `s`, where no placeholder starts, are copied as they are. */
  lemma {:induction false} SubstituteCopiesLiteral(s: string, n: nat, params: map<string, string>)
    requires n <= |s| && LiteralRun(s, n)
    ensures Substitute(s, params) == s[..n] + Substitute(s[n..], params)
    decreases n
  {
    if n > 0 {
      var t := s[1..];
      SubstituteLiteralStep(s, params);
      assert t[n - 1..] == s[n..];
      SubstituteCopiesLiteral(t, n - 1, params);
      ConsPrefix(s, n, Substitute(s, params), Substitute(t, params), Substitute(s[n..], params));
    }
  }

  /** Cons-ing the first character onto a copied prefix. */
  lemma ConsPrefix(s: string, n: nat, whole: string, tailOut: string, rest: string)
    requires 0 < n <= |s|
    requires whole == [s[0]] + tailOut
    requires tailOut == s[1..][..n - 1] + rest
    ensures whole == s[..n] + rest
  {
    assert [s[0]] + s[1..][..n - 1] == s[..n];
  }

  /** Where no placeholder starts, substitution copies one character and goes on. */
  lemma SubstituteLiteralStep(s: string, params: map<string, string>)
    requires |s| > 0 && PlaceholderAt(s).None?
    ensures Substitute(s, params) == [s[0]] + Substitute(s[1..], params)
  {
  }

  /** Text without any `{` is copied unchanged. */
  lemma SubstitutePlainPrefix(plain: string, rest: string, params: map<string, string>)
    requires '{' !in plain
    ensures Substitute(plain + rest, params) == plain + Substitute(rest, params)
  {
    assert NoPlaceholderStarts(plain, rest) by {
      forall i | 0 <= i < |plain| ensures PlaceholderAt((plain + rest)[i..]).None? {
        assert (plain + rest)[i..][0] == plain[i];
      }
    }
    SubstituteCopiesLiteralText(plain, rest, params);
  }

  /** A stray brace is kept: `{x {{a}}` with `a` given becomes `{x ` followed by the value. */
  lemma StrayBraceKept(value: string)
    ensures Substitute("{x " + Placeholder("a"), map["a" := value]) == "{x " + value
  {
    var params := map["a" := value];
    var s := "{x " + Placeholder("a");
    assert NoPlaceholderStarts("{x ", Placeholder("a")) by {
      forall i | 0 <= i < 3 ensures PlaceholderAt(s[i..]).None? {
        assert s[i..][0] == s[i] && s[i..][1] == s[i + 1];
      }
    }
    SubstituteCopiesLiteralText("{x ", Placeholder("a"), params);
    assert IsWord("a") by { assert "a"[0] == 'a'; }
    assert Placeholder("a") == Placeholder("a") + "";
    SubstitutePlaceholder("a", "", params);
    assert Substitute("", params) == "";
  }

  /**
   * Substitution alters nothing but recognised placeholders: when every
   * parameter's value is its own placeholder text, the result is the input.
   */
  lemma {:induction false} SubstituteOnlyTouchesPlaceholders(text: string, params: map<string, string>)
    requires forall name :: name in params ==> params[name] == Placeholder(name)
    ensures Substitute(text, params) == text
    decreases |text|
  {
    match PlaceholderAt(text)
    case Some(name) =>
      var len := |name| + 4;
      SubstitutePlaceholderStep(text, params, name);
      assert text[..len] == Placeholder(name);
      SubstituteOnlyTouchesPlaceholders(text[len..], params);
      Rejoin(text, len, Substitute(text, params), text[..len], Substitute(text[len..], params));
    case None =>
      if |text| > 0 {
        SubstituteLiteralStep(text, params);
        SubstituteOnlyTouchesPlaceholders(text[1..], params);
        assert [text[0]] == text[..1];
        Rejoin(text, 1, Substitute(text, params), [text[0]], Substitute(text[1..], params));
      }
  }

  /** Where a placeholder starts, substitution emits its value or the placeholder as written, and goes on after it. */
  lemma SubstitutePlaceholderStep(text: string, params: map<string, string>, name: string)
    requires PlaceholderAt(text) == Some(name)
    ensures |name| + 4 <= |text|
    ensures Substitute(text, params) ==
      (if name in params then params[name] else text[..|name| + 4]) + Substitute(text[|name| + 4..], params)
  {
  }

  /** A text is its own prefix followed by its own suffix. */
  lemma Rejoin(text: string, k: nat, whole: string, head: string, tail: string)
    requires k <= |text|
    requires whole == head + tail && head == text[..k] && tail == text[k..]
    ensures whole == text
  {
    assert text[..k] + text[k..] == text;
  }

  /** With no parameters at all, substitution leaves every text as written. */
  lemma SubstituteNoParams(text: string)
    ensures Substitute(text, map[]) == text
  {
    SubstituteOnlyTouchesPlaceholders(text, map[]);
  }

  /** Passing an empty parameter object is the same as passing none. */
  lemma EmptyParamsSameAsNone(dict: Dict, key: string)
    ensures T(dict, key, Some(map[])) == T(dict, key, None)
  {
    match Walk(dict, JsString.Split(key, '.'))
    case Some(Str(text)) => SubstituteNoParams(text);
    case _ =>
  }

  /**
   * Partial substitution, as in `{{step}} of {{total}}` with only `step`
   * given: the given placeholder becomes its value, the plain text between is
   * copied, and the placeholder without a parameter stays as written.
   */
  lemma PartialSubstitution(given: string, missing: string, between: string, value: string)
    requires IsWord(given) && IsWord(missing) && given != missing
    requires '{' !in between
    ensures Substitute(Placeholder(given) + between + Placeholder(missing), map[given := value])
         == value + between + Placeholder(missing)
  {
    var params := map[given := value];
    var tail := Placeholder(missing);
    assert Placeholder(given) + between + tail == Placeholder(given) + (between + tail);
    SubstitutePlaceholder(given, between + tail, params);
    SubstitutePlainPrefix(between, tail, params);
    assert tail == tail + "";
    SubstitutePlaceholder(missing, "", params);
    SubstituteNoParams("");
    assert Substitute("", params) == "";
  }
}

=== FILE: utils.dfy ===
/** Small pure helpers of the web app: text truncation and the delivery-time choice. */
module Utils {
  import JsString

  const Ellipsis: string := "..."

  /**
   * `truncateText`: a text that fits is returned as is; a longer one keeps
   * `text.slice(0, maxLength - 3)` and gains an ellipsis. For `maxLength`
   * below 3 the slice end is negative and counts from the back, so the
   * result is then longer than `maxLength`.
   */
  function TruncateText(text: string, maxLength: int): (r: string)
    ensures |text| <= maxLength ==> r == text
    ensures |text| > maxLength ==>
      && |r| >= 3 && r[|r| - 3..] == Ellipsis
      && r[..|r| - 3] <= text
    ensures |text| > maxLength && maxLength >= 3 ==> |r| == maxLength && r == text[..maxLength - 3] + Ellipsis
    ensures |text| > maxLength && maxLength < 3 ==> |r| > maxLength
  {
    if |text| <= maxLength then text
    else
      var kept := JsString.SlicePrefix(text, maxLength - 3);
      assert (kept + Ellipsis)[..|kept|] == kept;
      kept + Ellipsis
  }

  /** With room for the ellipsis, the result never exceeds `maxLength`. */
  lemma TruncateFits(text: string, maxLength: int)
    requires maxLength >= 3
    ensures |TruncateText(text, maxLength)| <= maxLength
  {
  }

  /** With room for the ellipsis, truncating twice is truncating once. */
  lemma TruncateIdempotent(text: string, maxLength: int)
    requires maxLength >= 3
    ensures TruncateText(TruncateText(text, maxLength), maxLength) == TruncateText(text, maxLength)
  {
  }

  /** Truncation never changes a text that already fits, and changes every text that does not. */
  lemma TruncateChangesExactlyLongTexts(text: string, maxLength: int)
    requires maxLength >= 3
    ensures TruncateText(text, maxLength) == text <==> |text| <= maxLength
  {
  }

  /** The edge case: with `maxLength` 2, "hello" becomes "hell...", seven characters. */
  lemma TruncateBelowEllipsisLength()
    ensures TruncateText("hello", 2) == "hell..."
  {
    assert JsString.SlicePrefix("hello", -1) == "hell";
  }

  datatype Urgency = Standard | Rush

  /** Days until delivery: one for a rush order, a week otherwise. */
  function DeliveryDays(urgency: Urgency): int {
    if urgency == Rush then 1 else 7
  }

  /** The estimated delivery day, counting days from any fixed origin. */
  function EstimatedDeliveryDay(today: int, urgency: Urgency): (day: int)
    ensures day > today
    ensures urgency == Rush <==> day == today + 1
    ensures urgency == Standard <==> day == today + 7
  {
    today + DeliveryDays(urgency)
  }

  /**
   * The delivery estimate never goes backwards: an order placed later is not
   * due earlier, and a rush order is never due after any order placed the
   * same day or later.
   */
  lemma DeliveryMonotone(today: int, later: int, urgency: Urgency)
    requires today <= later
    ensures EstimatedDeliveryDay(today, urgency) <= EstimatedDeliveryDay(later, urgency)
    ensures EstimatedDeliveryDay(today, Rush) <= EstimatedDeliveryDay(later, urgency)
  {
  }
}

=== FILE: wrappers.dfy ===
/** Optional values: `None` stands for JavaScript's `null`/`undefined`. */
module Wrappers {

  datatype Option<+T> = None | Some(value: T) {

    /** The value, or `default` when there is none (JavaScript's `x ?? default`). */
    function GetOr(default: T): T {
      match this
      case Some(v) => v
      case None => default
    }
  }
}
